=== FILE: README.md ===
# Crossword placement engines, modelled in Dafny

The backend of crossword-ai lays a list of words on a square character grid.
It has three engines, and this project models each one.

- **`CrosswordSolver`** (backend/crossword_generator_new.py) upper-cases the
  words and sorts them longest first. It writes the first word horizontally in
  the centre. It keeps an index from each letter to the cells holding it. For
  every later word it collects the legal positions that cross an indexed cell,
  scores them by overlap, and commits the first one of highest score. A word
  with no candidate gets up to 50 random draws.
- **`Crossword`** (backend/crossword_generator_greedy.py) orders the words and
  seeds the first one in the same way. Every later word is proposed across each
  letter it shares with a placed word, perpendicular to that word. The
  admissible proposal with the strictly highest overlap wins. Admissibility adds
  a side-adjacency rule to the bounds and conflict rule. A word with no winner
  gets up to 200 random draws.
- **`create_crossword`** (backend/crossword_generator.py) takes the words in
  input order and upper-cases each one. Each word gets up to 100 random
  in-bounds attempts and is written at the first attempt whose cells are blank
  or already hold the word's letter. `display_crossword` renders the grid as
  text.

The modules follow the files:

- `Grids` (grids.dfy) holds what the engines share: the board, placements, the
  cell a letter covers, writing a word, the bounds-and-conflict test, the
  overlap count, the random-draw ranges, upper-casing, the stable longest-first
  sort, and the display conversion.
- `Solver` (solver.dfy) is `CrosswordSolver`.
- `Greedy` (greedy.dfy) is `Crossword`.
- `Generator` (generator.dfy) is the random placer and its text display.
- `GreedyExample` (greedy_example.dfy) is a worked instance of the greedy
  engine's adjacency rule on a small grid.

**How state is modelled.** Each Python class is a Dafny class with the same
fields, and its methods reassign those fields. The grid is a `seq<seq<char>>`
updated cell by cell, and the lists and the letter index are `seq` and `map`
fields. Each method is proved against a specification function over the
state, such as `Commit`, `PlaceNextSpec`, `SolveSpec` or `RandomFrom`. The
lemmas then prove the source's promises about those functions.

**How randomness is modelled.** Every call to `random.choice`/`random.randint`
becomes a caller-supplied sequence of draws. It holds as many draws as
the source's loop can make (it stops at the first fit), and each draw lies in the range the source samples
from (`InSampledRange`). The properties hold for every such sequence.

**Order of the recorded words.** Each engine's word loop records at most one
entry per word, for that word, and takes the words in its list's order. The
model states this as "the recorded words are a subsequence of the words"
(`Subsequence` over `WordsOf` in `Grids`), which also bounds their number and
makes each one an input word.

## Model

| member | source | states |
|---|---|---|
| Grids.BlankBoard | backend/crossword_generator_new.py:24 | the fresh grid is size×size and every cell is blank |
| Grids.Written | backend/crossword_generator_new.py:64-67 | writing a word keeps the grid's shape |
| Grids.CellsDistinct | backend/crossword_generator_new.py:45-46 | two different offsets of a word cover two different cells |
| Grids.WrittenCells | backend/crossword_generator_new.py:64-67 | after writing, each covered on-grid cell holds its letter and every other cell is unchanged |
| Grids.WrittenPrefixStep | backend/crossword_generator_new.py:64-67 | one more loop iteration writes exactly letter i into its cell |
| Grids.WriteFitting | backend/crossword_generator_new.py:54-67 | writing a word that fits keeps the shape, never overwrites a letter, spells the word, and keeps every placement already spelled |
| Grids.BlankFits | backend/crossword_generator_new.py:44-52 | on the blank grid, any in-bounds placement fits |
| Grids.AllInBoundsSpan | backend/crossword_generator_new.py:44-48 | a non-empty word is in bounds iff its origin and last cell are on the grid |
| Grids.CentredInBounds | backend/crossword_generator_new.py:104-107 | the centred horizontal seed at (size//2, (size-len)//2) is in bounds when len ≤ size |
| Grids.SampledInBounds | backend/crossword_generator_new.py:134-137 | a drawn origin keeps every covered cell on the grid, and a word can only be drawn if len ≤ size |
| Grids.MatchingSplit | backend/crossword_generator_new.py:84-90 | the matching count from offset i is the count from i+1 plus one when cell i already holds word[i] |
| Grids.Upper | backend/crossword_generator_new.py:21 | upper-casing keeps the length, replaces every lower-case letter by its capital (32 code points lower), and keeps every other character |
| Grids.UpperAll | backend/crossword_generator_greedy.py:11 | each word is upper-cased in place in the list |
| Grids.InsertByKey | backend/crossword_generator_new.py:29 | an insertion step of the sort grows the list by one |
| Grids.SortByKeyDesc | backend/crossword_generator_new.py:29 | the sort keeps the length |
| Grids.InsertPerm | backend/crossword_generator_new.py:29 | an insertion step adds exactly the inserted element to the multiset |
| Grids.SortByKeyDescPerm | backend/crossword_generator_new.py:29 | the sorted list is a permutation of its input |
| Grids.SortedWords | backend/crossword_generator_new.py:21-29 | the engines' word order has as many words as the input |
| Grids.InsertSorted | backend/crossword_generator_new.py:29 | inserting into a non-increasing list keeps it non-increasing by key |
| Grids.SortByKeyDescSorted | backend/crossword_generator_new.py:29 | the result is ordered by non-increasing length |
| Grids.InsertStable | backend/crossword_generator_greedy.py:12 | an insertion places the element before every element of equal key |
| Grids.SortByKeyDescStable | backend/crossword_generator_greedy.py:12 | among words of one length the input order is kept (the sort is stable) |
| Grids.SortByKeyDescHead | backend/crossword_generator_new.py:124-128 | the head of the sorted list is the first element of maximal key in the input |
| Grids.GridToDisplay | backend/crossword_generator_new.py:162-168 | same shape; a cell becomes "" exactly when it is blank, and otherwise the one-letter string of the cell |
| Grids.DisplayRoundTrip | backend/crossword_generator_greedy.py:116-117 | the display conversion loses nothing: reading it back gives the grid |
| Solver.CanPlaceFrom | backend/crossword_generator_new.py:44-52 | the loop from offset i returns true iff every later covered cell is on the grid and blank or equal to the letter |
| Solver.CanPlace | backend/crossword_generator_new.py:31-52 | `_can_place` is true iff the placement is in bounds and every covered cell is blank or already holds the letter |
| Solver.ScoreFrom | backend/crossword_generator_new.py:84-90 | the loop from offset i counts the later offsets whose cell already holds the letter, at most len-i |
| Solver.Score | backend/crossword_generator_new.py:71-90 | the score is the number of offsets whose cell already holds the letter, between 0 and len(word) |
| Solver.IndexedGrows | backend/crossword_generator_new.py:64-68 | indexing a word keeps every old list as a prefix, appends one entry per occurrence of the letter, and adds exactly the word's letters as keys |
| Solver.IndexedEntries | backend/crossword_generator_new.py:64-68 | every entry appended under a letter is the cell of an offset holding that letter |
| Solver.IndexedHasEvery | backend/crossword_generator_new.py:64-68 | conversely, the cell of every offset is among the entries appended under that offset's letter |
| Solver.KeepsAgree | backend/crossword_generator_new.py:64-68 | writes that never overwrite a letter keep the letter index accurate |
| Solver.AddSlotAgrees | backend/crossword_generator_new.py:68 | appending a cell that holds its letter keeps the index accurate |
| Solver.IndexedAgrees | backend/crossword_generator_new.py:64-68 | after writing a word, indexing its cells keeps every indexed cell holding its letter |
| Solver.PartialStart | backend/crossword_generator_new.py:64 | before the loop the state is unchanged |
| Solver.PartialStep | backend/crossword_generator_new.py:64-68 | one iteration writes letter i and appends its cell under that letter |
| Solver.PartialEnd | backend/crossword_generator_new.py:69 | after the loop the placement tuple is appended |
| Solver.CommitShape | backend/crossword_generator_new.py:54-69 | placing a word keeps the grid size×size |
| Solver.CommitPreserves | backend/crossword_generator_new.py:54-69 | placing a fitting word keeps the invariant (every placement spelled, index accurate) and overwrites no letter |
| Solver.AnchorCovers | backend/crossword_generator_new.py:117-118 | the candidate origin (r-i, c) for 'V' or (r, c-i) for 'H' puts offset i on the indexed cell |
| Solver.SlotsCandidatesStep | backend/crossword_generator_new.py:115-121 | one more indexed cell appends its candidates at the end |
| Solver.SlotsCandidatesSound | backend/crossword_generator_new.py:115-121 | every candidate from a list of indexed cells is sound |
| Solver.CandidatesSound | backend/crossword_generator_new.py:113-121 | every candidate crosses an indexed cell of its letter, passes `_can_place`, and carries its true score |
| Solver.SlotsCandidatesPrefix | backend/crossword_generator_new.py:115-121 | the candidates of a prefix of the cells are a prefix of all candidates |
| Solver.CandidatesUpToPrefix | backend/crossword_generator_new.py:114-121 | the candidates of the first n offsets are a prefix of those of the first n2 |
| Solver.SlotCandidatesHas | backend/crossword_generator_new.py:116-121 | a fitting origin anchored at an indexed cell appears with its score |
| Solver.CandidatesComplete | backend/crossword_generator_new.py:113-121 | every fitting origin anchored at an indexed cell of a word's letter is among the candidates, with its score |
| Solver.CandidatesOverlap | backend/crossword_generator_new.py:119-121 | with an accurate index and a word with no blank letter, every candidate scores at least 1 |
| Solver.FallbackFromFit | backend/crossword_generator_new.py:134-140 | from any draw up to the first fitting one, the fallback places the word at that first fitting draw |
| Solver.FallbackFromNone | backend/crossword_generator_new.py:134-140 | when no remaining draw fits, the state is unchanged |
| Solver.FallbackFirstFit | backend/crossword_generator_new.py:133-140 | the fallback places the word at the first fitting draw, or changes nothing when none fits |
| Solver.CommitsFirstMax | backend/crossword_generator_new.py:124-130 | with candidates, the committed one is the first candidate of maximal score |
| Solver.PlaceNextPreserves | backend/crossword_generator_new.py:110-140 | one word's step keeps the invariant, overwrites no letter, and appends at most one placement, of that word |
| Solver.FallbackPreserves | backend/crossword_generator_new.py:133-140 | the fallback keeps the invariant, overwrites no letter, and appends at most one placement, of that word |
| Solver.PlaceNextShape | backend/crossword_generator_new.py:110-140 | one word's step keeps the grid size×size |
| Solver.FallbackShape | backend/crossword_generator_new.py:133-140 | the fallback keeps the grid size×size |
| Solver.SeedValid | backend/crossword_generator_new.py:104-107 | the seed satisfies the invariant and records exactly the centred first placement |
| Solver.SolveFromPreserves | backend/crossword_generator_new.py:110-140 | the loop over the remaining words keeps the invariant, overwrites no letter, and appends no more placements than words remain, each of a remaining word |
| Solver.SolveFromOrder | backend/crossword_generator_new.py:110-140 | the loop over the remaining words keeps the earlier placements and appends a subsequence of the remaining words: at most one placement per word, for that word, in order |
| Solver.SolveOrder | backend/crossword_generator_new.py:100-140 | the placed words are a subsequence of the words: the seed, then at most one placement per later word, for that word, in the words' order |
| Solver.KeepsTransitive | backend/crossword_generator_new.py:110 | "no letter overwritten" composes across words |
| Solver.SolveProperties | backend/crossword_generator_new.py:92-142 | the result has the invariant; the placed words are a subsequence of the words (at most one placement per word, in order), so no more placements than words, each of an input word; no words gives the blank grid and nothing placed; otherwise the first placement is the centred first word |
| Solver.CrosswordSolver.constructor | backend/crossword_generator_new.py:12-29 | words upper-cased and sorted longest first, blank size×size grid, empty placements and index |
| Solver.CrosswordSolver.PlaceWord | backend/crossword_generator_new.py:54-69 | the new state is the committed placement (letters written, cells indexed, tuple appended) |
| Solver.CrosswordSolver.Candidates | backend/crossword_generator_new.py:111-121 | the collected candidates are exactly the candidate list in generation order |
| Solver.CrosswordSolver.Fallback | backend/crossword_generator_new.py:133-140 | the new state is the fallback of the old and keeps the invariant; it succeeds iff some draw fits, iff one placement was appended |
| Solver.CrosswordSolver.PlaceNext | backend/crossword_generator_new.py:110-140 | the new state is one word's step of the old and keeps the invariant; it succeeds iff one placement was appended |
| Solver.CrosswordSolver.PlaceRest | backend/crossword_generator_new.py:110-141 | the new state is the loop over words[1:] and keeps the invariant |
| Solver.CrosswordSolver.Solve | backend/crossword_generator_new.py:92-142 | the final state is the solve specification; it returns the grid and placements; the invariant holds, and the placed words are a subsequence of the sorted words (at most one placement per word, in order) |
| Solver.PlaceNextFallback | backend/crossword_generator_new.py:126-133 | with no intersection candidate, the word lands at the first random draw that fits, and grid, placements and index are unchanged when no draw fits |
| Solver.CandidatesAt | backend/crossword_generator_new.py:115-121 | the loop over one letter's indexed cells collects exactly their candidates |
| Solver.CreateCrossword | backend/crossword_generator_new.py:145-159 | the grid is size×size and spells every placement; the placed words are a subsequence of the upper-cased, sorted words (at most one placement per word, in order); no words gives the blank grid; otherwise the longest word comes first, centred |
| Greedy.AdmitsFits | backend/crossword_generator_greedy.py:73-94 | an admissible placement is in bounds and conflict-free |
| Greedy.CrossingNeighbours | backend/crossword_generator_greedy.py:85-93 | at a crossing, a blank cell beside it along the word must receive a blank or the crossing letter |
| Greedy.ProposeCrosses | backend/crossword_generator_greedy.py:47-54 | a proposal is perpendicular to the placed word and puts the new word's letter i on its letter j |
| Greedy.ConcatHas | backend/crossword_generator_greedy.py:43-54 | an element of any part is in the concatenation |
| Greedy.ConcatSound | backend/crossword_generator_greedy.py:43-54 | an element of the concatenation comes from some part |
| Greedy.ProposalsUpToHas | backend/crossword_generator_greedy.py:40-54 | a proposal made against placed word t < k is among those of the first k placed words |
| Greedy.ProposalsUpToSound | backend/crossword_generator_greedy.py:40-54 | every proposal of the first k placed words comes from one of them |
| Greedy.ProposalsExact | backend/crossword_generator_greedy.py:40-54 | the proposals are exactly the positions crossing some placed word at matching letters i, j |
| Greedy.ProposalOverlaps | backend/crossword_generator_greedy.py:45-57 | on a grid spelling the placed word, a proposal's crossing cell is on the grid and the proposal scores at least 1 |
| Greedy.ScanToPrefix | backend/crossword_generator_greedy.py:40-60 | the first n comparisons do not depend on later proposals |
| Greedy.ScanSnoc | backend/crossword_generator_greedy.py:56-60 | one more proposal is one more comparison |
| Greedy.ScanToAppend | backend/crossword_generator_greedy.py:40-60 | scanning past a prefix continues from the prefix's result |
| Greedy.ScanAppend | backend/crossword_generator_greedy.py:40-60 | scanning two lists in turn is scanning their concatenation |
| Greedy.ScanPairsConcat | backend/crossword_generator_greedy.py:44-60 | the loop over the placed word's letters is the scan of the proposals for letter i |
| Greedy.ScanLettersConcat | backend/crossword_generator_greedy.py:43-60 | the loop over the new word's letters is the scan of the proposals against one placed word |
| Greedy.ScanPlacedConcat | backend/crossword_generator_greedy.py:40-60 | the loop over placed words is the scan of all proposals, in order |
| Greedy.ScanBest | backend/crossword_generator_greedy.py:38-60 | the result scores at least every admissible proposal; no position means score 0; a position is the first admissible proposal of maximal positive score, and the score is its overlap |
| Greedy.AppendShape | backend/crossword_generator_greedy.py:26-27 | placing and recording a word keeps the grid size×size |
| Greedy.AppendPreserves | backend/crossword_generator_greedy.py:26-27 | placing a fitting word keeps every placement spelled and overwrites no letter |
| Greedy.BestPositionChosen | backend/crossword_generator_greedy.py:37-61 | None iff every admissible proposal scores 0; otherwise the first admissible proposal of strictly maximal score |
| Greedy.NoBestMeansNoCrossing | backend/crossword_generator_greedy.py:23-30 | with every placement spelled and no blank in the word, None iff no proposal is admissible |
| Greedy.RandomFromFit | backend/crossword_generator_greedy.py:102-109 | from any draw up to the first admissible one, the word is placed and recorded there |
| Greedy.RandomFromNone | backend/crossword_generator_greedy.py:102-110 | when no remaining draw is admissible, the state is unchanged |
| Greedy.RandomFirst | backend/crossword_generator_greedy.py:101-110 | the fallback places the word at the first admissible draw, or changes nothing when none is admissible |
| Greedy.RandomPreserves | backend/crossword_generator_greedy.py:101-110 | the fallback keeps every placement spelled, overwrites no letter, and records at most one entry, of that word |
| Greedy.RandomShape | backend/crossword_generator_greedy.py:101-110 | the fallback keeps the grid size×size |
| Greedy.PlaceNextShape | backend/crossword_generator_greedy.py:22-30 | one word's step keeps the grid size×size |
| Greedy.PlaceNextPreserves | backend/crossword_generator_greedy.py:22-30 | one word's step keeps every placement spelled, overwrites no letter, and records at most one entry, of that word |
| Greedy.SeedValid | backend/crossword_generator_greedy.py:15-19 | the centred first word is spelled and is the only entry |
| Greedy.PlaceFromPreserves | backend/crossword_generator_greedy.py:22-30 | the loop over the remaining words keeps the invariant, overwrites no letter, and records no more entries than words remain, each of a remaining word |
| Greedy.PlaceFromOrder | backend/crossword_generator_greedy.py:22-30 | the words the loop records are a subsequence of the remaining words: at most one entry per word, for that word, in order |
| Greedy.PlaceWordsOrder | backend/crossword_generator_greedy.py:10-30 | the recorded words are a subsequence of the words: the seed, then at most one entry per later word, in order |
| Greedy.PlaceWordsProperties | backend/crossword_generator_greedy.py:10-32 | the result spells every entry; the recorded words are a subsequence of the words (at most one entry per word, in order), between 1 and len(words) of them, each of an input word; the first is the centred first word |
| Greedy.Crossword.constructor | backend/crossword_generator_greedy.py:5-8 | blank size×size grid, no entries |
| Greedy.Crossword.CanPlace | backend/crossword_generator_greedy.py:73-94 | true iff every covered cell is on the grid and blank or equal, and every blank covered cell has no side neighbour holding another letter |
| Greedy.Crossword.ScorePosition | backend/crossword_generator_greedy.py:63-71 | the count of on-grid covered cells already holding their letter, at most len(word) |
| Greedy.Crossword.FindBestPosition | backend/crossword_generator_greedy.py:37-61 | the result is the best position of the state |
| Greedy.Crossword.ScanPlacement | backend/crossword_generator_greedy.py:43-60 | the loop over the new word's letters is the scan against one placed word |
| Greedy.Crossword.ScanLetter | backend/crossword_generator_greedy.py:44-60 | the loop over the placed word's letters is the scan for letter i |
| Greedy.Crossword.PlaceWord | backend/crossword_generator_greedy.py:96-99 | the grid is the old grid with the word written; the entries are not touched |
| Greedy.Crossword.TryRandomPlace | backend/crossword_generator_greedy.py:101-110 | the new state is the fallback of the old; true iff some draw is admissible, iff one entry was recorded |
| Greedy.Crossword.PlaceNext | backend/crossword_generator_greedy.py:23-30 | the new state is one word's step of the old; true iff one entry was recorded |
| Greedy.Crossword.PlaceWords | backend/crossword_generator_greedy.py:10-32 | the final state is the specification over the upper-cased, sorted words; it returns the grid and entries |
| GreedyExample.CrossingRejected | backend/crossword_generator_greedy.py:85-93 | with CAT seeded on a 5×5 grid, TEA down through CAT's A is a proposal that fits the grid, yet the adjacency rule rejects it |
| Greedy.CreateCrossword | backend/crossword_generator_greedy.py:112-114 | the grid is size×size and spells every entry; the recorded words are a subsequence of the upper-cased, sorted words (at most one entry per word, in order), at least one; the first is the longest word, centred |
| Generator.AttemptsFromFit | backend/crossword_generator.py:11-21 | from any attempt up to the first fitting one, the word is written and recorded there |
| Generator.AttemptsFromNone | backend/crossword_generator.py:11-30 | when no remaining attempt fits, the state is unchanged |
| Generator.AttemptsFirstFit | backend/crossword_generator.py:11-30 | the word goes to the first fitting attempt, or nothing changes when none fits |
| Generator.SampledTest | backend/crossword_generator.py:13-16 | a drawn origin is in bounds, so the source's all-blank-or-equal test is exactly "fits" |
| Generator.AttemptsPreserves | backend/crossword_generator.py:11-30 | one word's attempts keep every placement spelled, overwrite no letter, and append at most one tuple, of that word |
| Generator.CreateFromProperties | backend/crossword_generator.py:8-30 | the loop over the words keeps the invariant, overwrites no letter, and appends no more tuples than words remain, each an upper-cased remaining word |
| Generator.CreateFromOrder | backend/crossword_generator.py:8-30 | the loop takes the words in input order: the recorded words are a subsequence of the upper-cased remaining words, at most one tuple per word |
| Generator.CreateProperties | backend/crossword_generator.py:4-33 | the result is size×size and spells every tuple; the recorded words are a subsequence of the upper-cased input words (at most one tuple per word, in input order), so each is an upper-cased input word |
| Generator.WriteWord | backend/crossword_generator.py:17-18 | the loop writes exactly the word's letters into its cells |
| Generator.TryPlace | backend/crossword_generator.py:10-30 | the result is the attempts specification; success iff some attempt fits, iff one tuple was appended; on failure grid and list are unchanged |
| Generator.CreateCrossword | backend/crossword_generator.py:4-33 | the result is the specification over the words in input order; the grid is size×size and spells every tuple; the recorded words are a subsequence of the upper-cased words (at most one tuple per word, in input order) |
| Generator.StartMono | backend/crossword_generator.py:37 | later parts start later in the joined text |
| Generator.StartClosed | backend/crossword_generator.py:37 | part t of equal-length parts joined with a one-character separator starts at t·(L+1) |
| Generator.StartPairs | backend/crossword_generator.py:37 | in a row, cell c starts at character 2c |
| Generator.JoinLength | backend/crossword_generator.py:37 | joining t equal-length parts with a one-character separator has length Start(t, L)-1, that is t·(L+1)-1 by StartClosed |
| Generator.JoinAt | backend/crossword_generator.py:37 | character x of part t sits at t·(L+1)+x, and the separator follows each part but the last |
| Generator.AtBound | backend/crossword_generator.py:36-37 | the last cell has the highest position |
| Generator.CellsUniform | backend/crossword_generator.py:37 | every cell is rendered as one character |
| Generator.LinesUniform | backend/crossword_generator.py:37 | every rendered row has 2·size-1 characters |
| Generator.RowAt | backend/crossword_generator.py:37 | in a rendered row, cell c sits at 2c, followed by a space unless it is last |
| Generator.DisplayLineAt | backend/crossword_generator.py:37 | character y of row r sits at Start(r, 2·size-1)+y, that is r·2·size+y by StartClosed, and a newline ends each row but the last |
| Generator.DisplayAt | backend/crossword_generator.py:36-37 | cell (r, c) sits at its position, followed by a space inside a row or a newline at its end |
| Generator.DisplayCrossword | backend/crossword_generator.py:36-37 | the cells of each row joined with spaces, the rows with newlines; a size×size grid (size > 0) gives 2·size²-1 characters (the position of every cell is in DisplayLayout, the inverse in DisplayRoundTrip) |
| Generator.DisplayLayout | backend/crossword_generator.py:36-37 | the length, every cell at its position, and the separator after each cell |
| Generator.ReadDisplay | backend/crossword_generator.py:36-37 | reading cells back from a text of the display's length gives a size×size grid |
| Generator.ReadDisplayAt | backend/crossword_generator.py:36-37 | reading the display back gives cell (r, c) of the grid |
| Generator.DisplayRoundTrip | backend/crossword_generator.py:36-37 | the display loses nothing: reading it back gives the grid |

## Left out

- HTTP routing (backend/main.py), the OpenAI word generator, and the two front ends are not part of this model: they are plumbing, a foreign call and the DOM.
- The distribution of `random.choice`/`random.randint`: draws are parameters that lie in the sampled ranges, and every property holds for any such draws.
- The `clues` field of `CrosswordSolver`, which nothing reads, and the `print` for an unplaced word in `create_crossword`.
- Grids.Upper: models `str.upper()` on ASCII letters only. Non-ASCII case mapping, and mappings that change a string's length, are not modelled.
- Solver.CrosswordSolver.Solve: requires the longest word to fit the grid. In Python a longer first word gives a negative start column, and the write wraps around through negative indices or raises IndexError; that path is not modelled. The same holds for Greedy.Crossword.PlaceWords, Solver.CreateCrossword and Greedy.CreateCrossword.
- Greedy.Crossword.PlaceWords: requires a non-empty word list, because `place_words` indexes `words[0]` and raises IndexError on an empty list.
- Generator.CreateCrossword: requires each draw to be in the sampled range. For a word longer than the grid, `random.randint` raises ValueError instead; that error path is not modelled.
- Solver.CrosswordSolver.Solve and Greedy.Crossword.PlaceWords are modelled on a freshly constructed object, which is how the modules' `create_crossword` use them. Calling them a second time on the same object is not modelled.
- Solver.SolveProperties: the invariant says each placement spells its non-blank letters. A word containing a space leaves a blank cell that a later word may fill, so nothing stronger holds for such words. The same holds for Greedy.PlaceWordsProperties and Generator.CreateProperties.
- Generator.ReadDisplay: defined for size > 0 only. Size 0 gives the empty grid and the empty text, from which the size cannot be read back.
- The `candidates[:5]` slice in `solve`: the loop breaks on its first iteration, so only the first candidate is used, and that is what the model does.

=== FILE: generator.dfy ===
/** The purely random placer of backend/crossword_generator.py: every word,
    upper-cased and in input order, gets up to 100 random in-bounds attempts
    and is written at the first one whose covered cells are all blank or
    already hold the word's letter. Also the plain-text display. */
module Generator {
  import opened Grids

  /** `for _ in range(100)`: the attempts per word. */
  const MaxTries: nat := 100

  /** The two locals `create_crossword` builds: the grid and placed_words. */
  datatype GenState = GenState(grid: Board, placed: seq<Placement>)

  /** The locals before the first word. */
  function Initial(size: nat): GenState
  {
    GenState(BlankBoard(size), [])
  }

  /** The invariant of the word loop: a size × size grid on which every
      recorded tuple is spelled. */
  ghost predicate Invariant(s: GenState, size: nat)
  {
    IsBoard(s.grid, size) && forall p :: p in s.placed ==> Spelled(s.grid, size, p)
  }

  /** A successful attempt: write the word and append its tuple. */
  function Append(s: GenState, word: string, a: Pos): GenState
  {
    GenState(Written(s.grid, word, a.row, a.col, a.dir), s.placed + [Placement(word, a.row, a.col, a.dir)])
  }

  // ---------------------------------------------------------------------------
  // The retry loop for one word
  // ---------------------------------------------------------------------------

  /** Attempts k.. of the retry loop: append at the first attempt whose
      covered cells accept the word (`all(... in (' ', word[i]) ...)`), or
      change nothing when none does. */
  function AttemptsFrom(s: GenState, size: nat, word: string, tries: seq<Pos>, k: nat): GenState
    requires IsBoard(s.grid, size) && k <= |tries|
    decreases |tries| - k
  {
    if k == |tries| then s
    else if Fits(s.grid, size, word, tries[k].row, tries[k].col, tries[k].dir) then Append(s, word, tries[k])
    else AttemptsFrom(s, size, word, tries, k + 1)
  }

  /** The whole retry loop for one word. */
  function Attempts(s: GenState, size: nat, word: string, tries: seq<Pos>): GenState
    requires IsBoard(s.grid, size)
  {
    AttemptsFrom(s, size, word, tries, 0)
  }

  lemma {:induction false} AttemptsFromFit(s: GenState, size: nat, word: string, tries: seq<Pos>, k: nat, n: nat)
    requires IsBoard(s.grid, size) && k <= n && FirstFit(s.grid, size, word, tries, n)
    ensures AttemptsFrom(s, size, word, tries, k) == Append(s, word, tries[n])
    decreases n - k
  {
    if k < n {
      assert !Fits(s.grid, size, word, tries[k].row, tries[k].col, tries[k].dir);
      AttemptsFromFit(s, size, word, tries, k + 1, n);
    }
  }

  lemma {:induction false} AttemptsFromNone(s: GenState, size: nat, word: string, tries: seq<Pos>, k: nat)
    requires IsBoard(s.grid, size) && k <= |tries|
    requires forall n :: k <= n < |tries| ==> !Fits(s.grid, size, word, tries[n].row, tries[n].col, tries[n].dir)
    ensures AttemptsFrom(s, size, word, tries, k) == s
    decreases |tries| - k
  {
    if k < |tries| {
      AttemptsFromNone(s, size, word, tries, k + 1);
    }
  }

  /** The retry loop writes the word at exactly the first attempt that
      fits and records that tuple; when no attempt fits, grid and
      placed_words are unchanged. */
  lemma AttemptsFirstFit(s: GenState, size: nat, word: string, tries: seq<Pos>)
    requires IsBoard(s.grid, size)
    ensures forall n :: FirstFit(s.grid, size, word, tries, n) ==>
              Attempts(s, size, word, tries) == Append(s, word, tries[n])
    ensures (forall n :: 0 <= n < |tries| ==> !Fits(s.grid, size, word, tries[n].row, tries[n].col, tries[n].dir)) ==>
              Attempts(s, size, word, tries) == s
  {
    forall n | FirstFit(s.grid, size, word, tries, n)
      ensures Attempts(s, size, word, tries) == Append(s, word, tries[n])
    {
      AttemptsFromFit(s, size, word, tries, 0, n);
    }
    if forall n :: 0 <= n < |tries| ==> !Fits(s.grid, size, word, tries[n].row, tries[n].col, tries[n].dir) {
      AttemptsFromNone(s, size, word, tries, 0);
    }
  }

  /** For an attempt drawn from the sampled ranges, the source's test
      `all(grid[..][..] in (' ', word[i]) ...)` is the legality rule: the
      draw already keeps every covered cell on the grid. */
  lemma SampledTest(b: Board, size: nat, word: string, a: Pos)
    requires IsBoard(b, size) && InSampledRange(a, |word|, size)
    ensures AllInBounds(size, |word|, a.row, a.col, a.dir)
    ensures Fits(b, size, word, a.row, a.col, a.dir) <==> AllCompatible(b, size, word, a.row, a.col, a.dir)
  {
    SampledInBounds(a, |word|, size);
  }

  /** One word keeps the invariant and every letter already on the grid,
      and appends at most one tuple, for this word. */
  lemma {:induction false} AttemptsPreserves(s: GenState, size: nat, word: string, tries: seq<Pos>, k: nat)
    requires Invariant(s, size) && k <= |tries|
    ensures var t := AttemptsFrom(s, size, word, tries, k);
            && Invariant(t, size)
            && Keeps(s.grid, t.grid)
            && s.placed <= t.placed && |t.placed| <= |s.placed| + 1
            && forall j :: |s.placed| <= j < |t.placed| ==> t.placed[j].word == word
    decreases |tries| - k
  {
    if k < |tries| {
      var a := tries[k];
      if Fits(s.grid, size, word, a.row, a.col, a.dir) {
        WriteFitting(s.grid, size, word, a.row, a.col, a.dir);
      } else {
        AttemptsPreserves(s, size, word, tries, k + 1);
      }
    } else {
      assert Keeps(s.grid, s.grid);
    }
  }

  // ---------------------------------------------------------------------------
  // `create_crossword`
  // ---------------------------------------------------------------------------

  /** Words k.. of `create_crossword`, word k upper-cased and drawing its
      attempts from `draws[k]`. */
  function CreateFrom(s: GenState, size: nat, words: seq<string>, draws: seq<seq<Pos>>, k: nat): GenState
    requires Invariant(s, size) && |draws| == |words| && k <= |words|
    decreases |words| - k
  {
    if k == |words| then s
    else
      var t := Attempts(s, size, Upper(words[k]), draws[k]);
      assert Invariant(t, size) by { AttemptsPreserves(s, size, Upper(words[k]), draws[k], 0); }
      CreateFrom(t, size, words, draws, k + 1)
  }

  /** `create_crossword(words, grid_size)` for the given attempts. */
  function CreateSpec(words: seq<string>, size: nat, draws: seq<seq<Pos>>): GenState
    requires |draws| == |words|
  {
    assert Invariant(Initial(size), size);
    CreateFrom(Initial(size), size, words, draws, 0)
  }

  /** Over the remaining words: the invariant holds, no letter is ever
      replaced, the tuples only grow, by at most one per word, and each new
      tuple records the upper-cased form of one of those words. */
  lemma {:induction false} CreateFromProperties(s: GenState, size: nat, words: seq<string>, draws: seq<seq<Pos>>, k: nat)
    requires Invariant(s, size) && |draws| == |words| && k <= |words|
    ensures var t := CreateFrom(s, size, words, draws, k);
            && Invariant(t, size)
            && Keeps(s.grid, t.grid)
            && s.placed <= t.placed
            && |t.placed| <= |s.placed| + (|words| - k)
            && forall j :: |s.placed| <= j < |t.placed| ==> exists m :: k <= m < |words| && t.placed[j].word == Upper(words[m])
    decreases |words| - k
  {
    if k < |words| {
      var w := Upper(words[k]);
      var t := Attempts(s, size, w, draws[k]);
      AttemptsPreserves(s, size, w, draws[k], 0);
      CreateFromProperties(t, size, words, draws, k + 1);
      var u := CreateFrom(t, size, words, draws, k + 1);
      assert u == CreateFrom(s, size, words, draws, k);
      forall j | |s.placed| <= j < |u.placed|
        ensures exists m :: k <= m < |words| && u.placed[j].word == Upper(words[m])
      {
        if j < |t.placed| {
          assert u.placed[j] == t.placed[j];
          assert u.placed[j].word == Upper(words[k]);
        }
      }
    } else {
      assert Keeps(s.grid, s.grid);
    }
  }

  /** The loop processes the words in input order and records at most one
      tuple per word, for that word upper-cased: the recorded words are a
      subsequence of the upper-cased words k... */
  lemma {:induction false} CreateFromOrder(s: GenState, size: nat, words: seq<string>, draws: seq<seq<Pos>>, k: nat, r: GenState)
    requires Invariant(s, size) && |draws| == |words| && k <= |words|
    requires r == CreateFrom(s, size, words, draws, k)
    ensures s.placed <= r.placed && Subsequence(WordsOf(r.placed[|s.placed|..]), UpperAll(words)[k..])
    decreases |words| - k
  {
    if k < |words| {
      var w := Upper(words[k]);
      var t := Attempts(s, size, w, draws[k]);
      AttemptsRecords(s, size, w, draws[k]);
      assert r == CreateFrom(t, size, words, draws, k + 1);
      CreateFromOrder(t, size, words, draws, k + 1, r);
      WordsOfStep(s.placed, t.placed, r.placed, UpperAll(words), k);
    } else {
      assert WordsOf(s.placed[|s.placed|..]) == [];
    }
  }

  /** One word's attempts record at most one tuple, of that word, and keep
      the invariant. */
  lemma AttemptsRecords(s: GenState, size: nat, word: string, tries: seq<Pos>)
    requires Invariant(s, size)
    ensures var t := Attempts(s, size, word, tries);
            Invariant(t, size) && RecordsAtMostOne(s.placed, t.placed, word)
  {
    AttemptsPreserves(s, size, word, tries, 0);
  }

  /** The result of `create_crossword`: a size × size grid on which every
      recorded tuple spells its word; the recorded words are a subsequence
      of the upper-cased input words (at most one tuple per word, in input
      order), so each tuple's word is the upper-cased form of an input
      word. */
  lemma CreateProperties(words: seq<string>, size: nat, draws: seq<seq<Pos>>)
    requires |draws| == |words|
    ensures var t := CreateSpec(words, size, draws);
            && IsBoard(t.grid, size)
            && (forall p :: p in t.placed ==> Spelled(t.grid, size, p))
            && Subsequence(WordsOf(t.placed), UpperAll(words))
            && |t.placed| <= |words|
            && forall p :: p in t.placed ==> exists m :: 0 <= m < |words| && p.word == Upper(words[m])
  {
    var t := CreateSpec(words, size, draws);
    CreateFromProperties(Initial(size), size, words, draws, 0);
    CreateFromOrder(Initial(size), size, words, draws, 0, t);
    assert t.placed[0..] == t.placed && UpperAll(words)[0..] == UpperAll(words);
    forall p | p in t.placed
      ensures exists m :: 0 <= m < |words| && p.word == Upper(words[m])
    {
      var j :| 0 <= j < |t.placed| && t.placed[j] == p;
    }
  }

  /** The loop that writes the word's letters into the grid, as
      `create_crossword` does for both directions. */
  method WriteWord(grid: Board, size: nat, word: string, a: Pos) returns (g: Board)
    requires IsBoard(grid, size) && AllInBounds(size, |word|, a.row, a.col, a.dir)
    ensures g == Written(grid, word, a.row, a.col, a.dir)
    ensures IsBoard(g, size)
  {
    g := grid;
    assert word[..0] == [];
    for i := 0 to |word|
      invariant g == Written(grid, word[..i], a.row, a.col, a.dir)
      invariant IsBoard(g, size)
    {
      var r, c := RowOf(a.row, a.dir, i), ColOf(a.col, a.dir, i);
      assert InBounds(size, r, c);
      WrittenPrefixStep(grid, word, a.row, a.col, a.dir, i);
      g := g[r := g[r][c := word[i]]];
    }
    assert word[..|word|] == word;
  }

  /** The retry loop for one word: up to 100 attempts, writing and
      recording at the first that fits, then `break`. */
  method TryPlace(grid: Board, placed: seq<Placement>, size: nat, word: string, tries: seq<Pos>)
    returns (g: Board, ps: seq<Placement>, ok: bool)
    requires IsBoard(grid, size)
    requires |tries| == MaxTries && forall a :: a in tries ==> InSampledRange(a, |word|, size)
    ensures GenState(g, ps) == Attempts(GenState(grid, placed), size, word, tries)
    ensures ok <==> exists n :: 0 <= n < |tries| && Fits(grid, size, word, tries[n].row, tries[n].col, tries[n].dir)
    ensures ok <==> |ps| == |placed| + 1
    ensures !ok ==> g == grid && ps == placed
  {
    g, ps, ok := grid, placed, false;
    for k := 0 to |tries|
      invariant AttemptsFrom(GenState(grid, placed), size, word, tries, k) == Attempts(GenState(grid, placed), size, word, tries)
      invariant forall n :: 0 <= n < k ==> !Fits(grid, size, word, tries[n].row, tries[n].col, tries[n].dir)
    {
      var a := tries[k];
      SampledTest(grid, size, word, a);
      if AllCompatible(grid, size, word, a.row, a.col, a.dir) {
        g := WriteWord(grid, size, word, a);
        ps := placed + [Placement(word, a.row, a.col, a.dir)];
        ok := true;
        return;
      }
    }
    AttemptsFromNone(GenState(grid, placed), size, word, tries, |tries|);
  }

  /** `create_crossword(words, grid_size)`: `draws[k]` are the 100 attempts
      of the k-th word, each in the range `random.randint` samples from. */
  method CreateCrossword(words: seq<string>, size: nat, draws: seq<seq<Pos>>) returns (grid: Board, placed: seq<Placement>)
    requires |draws| == |words|
    requires forall k :: 0 <= k < |words| ==>
               |draws[k]| == MaxTries && forall a :: a in draws[k] ==> InSampledRange(a, |words[k]|, size)
    ensures GenState(grid, placed) == CreateSpec(words, size, draws)
    ensures IsBoard(grid, size) && forall p :: p in placed ==> Spelled(grid, size, p)
    ensures |placed| <= |words|
    ensures Subsequence(WordsOf(placed), UpperAll(words))
  {
    grid, placed := BlankBoard(size), [];
    assert Invariant(Initial(size), size);
    for k := 0 to |words|
      invariant Invariant(GenState(grid, placed), size)
      invariant CreateFrom(GenState(grid, placed), size, words, draws, k) == CreateSpec(words, size, draws)
    {
      var word := Upper(words[k]);
      AttemptsPreserves(GenState(grid, placed), size, word, draws[k], 0);
      var ok;
      grid, placed, ok := TryPlace(grid, placed, size, word, draws[k]);
    }
    CreateProperties(words, size, draws);
  }

  // ---------------------------------------------------------------------------
  // `display_crossword`
  // ---------------------------------------------------------------------------

  /** `sep.join(parts)`. */
  function Join(sep: string, parts: seq<string>): string
  {
    if parts == [] then ""
    else if |parts| == 1 then parts[0]
    else Join(sep, parts[..|parts| - 1]) + sep + parts[|parts| - 1]
  }

  /** The cells of a row, each a one-character string. */
  function Cells(row: seq<char>): seq<string>
  {
    seq(|row|, c requires 0 <= c < |row| => [row[c]])
  }

  /** `" ".join(row)`. */
  function RowText(row: seq<char>): string
  {
    Join(" ", Cells(row))
  }

  /** The texts of the rows. */
  function Lines(b: Board): seq<string>
  {
    seq(|b|, r requires 0 <= r < |b| => RowText(b[r]))
  }

  /** `display_crossword(grid)`: the cells of each row joined with spaces,
      the rows joined with newlines. A size × size grid (size > 0) gives
      2 * size * size - 1 characters: size lines of 2 * size - 1 characters
      and the size - 1 newlines between them. */
  function DisplayCrossword(b: Board): (d: string)
    ensures |b| > 0 && IsBoard(b, |b|) ==> |d| == At(|b|, |b| - 1, |b| - 1) + 1
    ensures |b| > 0 && IsBoard(b, |b|) ==> |d| == 2 * |b| * |b| - 1
  {
    assert |b| > 0 && IsBoard(b, |b|) ==>
             |Join("\n", Lines(b))| == At(|b|, |b| - 1, |b| - 1) + 1 == 2 * |b| * |b| - 1 by {
      if |b| > 0 && IsBoard(b, |b|) {
        LinesUniform(b, |b|);
        JoinLength("\n", Lines(b), 2 * |b| - 1);
        AtLast(|b|);
      }
    }
    Join("\n", Lines(b))
  }

  /** Where part t starts when parts of length L are joined with a
      one-character separator: t * (L + 1). */
  function Start(t: nat, L: nat): nat
  {
    if t == 0 then 0 else Start(t - 1, L) + L + 1
  }

  /** The closed form of Start: part t starts at t * (L + 1). */
  lemma {:induction false} StartClosed(t: nat, L: nat)
    ensures Start(t, L) == t * (L + 1)
  {
    if t > 0 {
      StartClosed(t - 1, L);
      assert (t - 1) * (L + 1) + L + 1 == t * (L + 1);
    }
  }

  /** The character after the last cell of a size × size display is its
      2 * size * size - 1st. */
  lemma AtLast(size: nat)
    requires size > 0
    ensures At(size, size - 1, size - 1) + 1 == 2 * size * size - 1
  {
    StartClosed(size - 1, 2 * size - 1);
    assert (size - 1) * (2 * size) + 2 * (size - 1) + 1 == 2 * size * size - 1;
  }

  lemma {:induction false} StartMono(t: nat, u: nat, L: nat)
    requires t <= u
    ensures Start(t, L) <= Start(u, L)
    decreases u
  {
    if t < u {
      StartMono(t, u - 1, L);
    }
  }

  lemma {:induction false} StartPairs(c: nat)
    ensures Start(c, 1) == 2 * c
  {
    if c > 0 {
      StartPairs(c - 1);
    }
  }

  /** Every part has length L. */
  ghost predicate Uniform(parts: seq<string>, L: nat)
  {
    forall t :: 0 <= t < |parts| ==> |parts[t]| == L
  }

  lemma {:induction false} JoinLength(sep: string, parts: seq<string>, L: nat)
    requires |sep| == 1 && parts != [] && Uniform(parts, L)
    ensures |Join(sep, parts)| == Start(|parts|, L) - 1
    decreases |parts|
  {
    if |parts| > 1 {
      JoinLength(sep, parts[..|parts| - 1], L);
    }
  }

  /** Joining parts of one length L with a one-character separator: from
      Start(t, L) on stand the L characters of part t and then, unless t is
      the last part, the separator. */
  lemma {:induction false} JoinAt(sep: string, parts: seq<string>, L: nat, t: nat, x: nat)
    requires |sep| == 1 && Uniform(parts, L)
    requires t < |parts| && (x < L || (x == L && t < |parts| - 1))
    ensures Start(t, L) + x < |Join(sep, parts)|
    ensures Join(sep, parts)[Start(t, L) + x] == if x < L then parts[t][x] else sep[0]
    decreases |parts|
  {
    if |parts| > 1 {
      var init := parts[..|parts| - 1];
      JoinLength(sep, init, L);
      if t == |parts| - 1 {
        assert Start(t, L) + x == |Join(sep, init)| + 1 + x;
      } else if t == |parts| - 2 && x == L {
        assert Start(t, L) + x == |Join(sep, init)|;
      } else {
        JoinAt(sep, init, L, t, x);
        assert init[t] == parts[t];
      }
    }
  }

  /** The position of cell (r, c) in the display of a size × size grid:
      r * 2 * size + 2 * c. */
  function At(size: nat, r: nat, c: nat): int
    requires size > 0
  {
    Start(r, 2 * size - 1) + 2 * c
  }

  /** The last cell comes last. */
  lemma AtBound(size: nat, r: nat, c: nat)
    requires 0 < size && r < size && c < size
    ensures At(size, r, c) <= At(size, size - 1, size - 1)
  {
    StartMono(r, size - 1, 2 * size - 1);
  }

  lemma CellsUniform(row: seq<char>)
    ensures Uniform(Cells(row), 1)
  {
  }

  /** Every line of a size × size grid has 2 * size - 1 characters. */
  lemma LinesUniform(b: Board, size: nat)
    requires IsBoard(b, size) && size > 0
    ensures Uniform(Lines(b), 2 * size - 1)
  {
    forall t | 0 <= t < size
      ensures |Lines(b)[t]| == 2 * size - 1
    {
      CellsUniform(b[t]);
      JoinLength(" ", Cells(b[t]), 1);
      StartPairs(size);
    }
  }

  /** One character of the display: cell (r, c), or the separator after it,
      a space within a line and a newline at its end. */
  lemma DisplayAt(b: Board, size: nat, r: nat, c: nat, x: nat)
    requires IsBoard(b, size) && size > 0 && r < size && c < size && x <= 1
    requires x == 1 ==> c < size - 1 || r < size - 1
    ensures At(size, r, c) + x < |DisplayCrossword(b)|
    ensures DisplayCrossword(b)[At(size, r, c) + x] ==
            if x == 0 then b[r][c] else if c < size - 1 then ' ' else '\n'
  {
    if x == 0 || c < size - 1 {
      RowAt(b[r], c, x);
      DisplayLineAt(b, size, r, 2 * c + x);
    } else {
      DisplayLineAt(b, size, r, 2 * size - 1);
    }
  }

  /** Character y of line r, or the newline after it (y = 2 * size - 1). */
  lemma DisplayLineAt(b: Board, size: nat, r: nat, y: nat)
    requires IsBoard(b, size) && size > 0 && r < size && y <= 2 * size - 1
    requires y == 2 * size - 1 ==> r < size - 1
    ensures |RowText(b[r])| == 2 * size - 1
    ensures Start(r, 2 * size - 1) + y < |DisplayCrossword(b)|
    ensures DisplayCrossword(b)[Start(r, 2 * size - 1) + y] ==
            if y < 2 * size - 1 then RowText(b[r])[y] else '\n'
  {
    LinesUniform(b, size);
    assert Lines(b)[r] == RowText(b[r]);
    JoinAt("\n", Lines(b), 2 * size - 1, r, y);
  }

  /** One character of a row's text: cell c, or the space after it. */
  lemma RowAt(row: seq<char>, c: nat, x: nat)
    requires c < |row| && x <= 1 && (x == 1 ==> c < |row| - 1)
    ensures 2 * c + x < |RowText(row)|
    ensures RowText(row)[2 * c + x] == if x == 0 then row[c] else ' '
  {
    CellsUniform(row);
    StartPairs(c);
    JoinAt(" ", Cells(row), 1, c, x);
  }

  /** The layout of the display of a size × size grid (size > 0): cell
      (r, c) stands at At(size, r, c) and is followed by a space within a
      line, by a newline at the end of every line but the last, and by
      nothing after the last cell. */
  lemma DisplayLayout(b: Board, size: nat)
    requires IsBoard(b, size) && size > 0
    ensures var d := DisplayCrossword(b);
            && |d| == At(size, size - 1, size - 1) + 1
            && (forall r: nat, c: nat :: r < size && c < size ==>
                  At(size, r, c) < |d| && d[At(size, r, c)] == b[r][c])
            && (forall r: nat, c: nat :: r < size && c < size && (c < size - 1 || r < size - 1) ==>
                  At(size, r, c) + 1 < |d| && d[At(size, r, c) + 1] == if c < size - 1 then ' ' else '\n')
  {
    DisplayCells(b, size);
    DisplaySeparators(b, size);
  }

  /** Every cell of the grid at its position in the display. */
  lemma DisplayCells(b: Board, size: nat)
    requires IsBoard(b, size) && size > 0
    ensures forall r: nat, c: nat :: r < size && c < size ==>
              At(size, r, c) < |DisplayCrossword(b)| && DisplayCrossword(b)[At(size, r, c)] == b[r][c]
  {
    forall r: nat, c: nat | r < size && c < size
      ensures At(size, r, c) < |DisplayCrossword(b)| && DisplayCrossword(b)[At(size, r, c)] == b[r][c]
    {
      DisplayAt(b, size, r, c, 0);
    }
  }

  /** The separator after every cell but the last in the display. */
  lemma DisplaySeparators(b: Board, size: nat)
    requires IsBoard(b, size) && size > 0
    ensures forall r: nat, c: nat :: r < size && c < size && (c < size - 1 || r < size - 1) ==>
              At(size, r, c) + 1 < |DisplayCrossword(b)| &&
              DisplayCrossword(b)[At(size, r, c) + 1] == if c < size - 1 then ' ' else '\n'
  {
    forall r: nat, c: nat | r < size && c < size && (c < size - 1 || r < size - 1)
      ensures At(size, r, c) + 1 < |DisplayCrossword(b)| &&
              DisplayCrossword(b)[At(size, r, c) + 1] == if c < size - 1 then ' ' else '\n'
    {
      DisplayAt(b, size, r, c, 1);
    }
  }

  /** Reading a size × size grid back from its display. */
  function ReadDisplay(d: string, size: nat): (b: Board)
    requires size > 0 && |d| == At(size, size - 1, size - 1) + 1
    ensures IsBoard(b, size)
  {
    seq(size, r requires 0 <= r < size =>
      seq(size, c requires 0 <= c < size =>
        assert At(size, r, c) < |d| by {
          AtBound(size, r, c);
        }
        d[At(size, r, c)]))
  }

  lemma SameBoard(b1: Board, b2: Board, size: nat)
    requires IsBoard(b1, size) && IsBoard(b2, size)
    requires forall r, c :: 0 <= r < size && 0 <= c < size ==> b1[r][c] == b2[r][c]
    ensures b1 == b2
  {
    forall r | 0 <= r < size
      ensures b1[r] == b2[r]
    {
    }
  }

  lemma ReadDisplayAt(b: Board, size: nat, r: nat, c: nat)
    requires IsBoard(b, size) && r < size && c < size
    ensures |DisplayCrossword(b)| == At(size, size - 1, size - 1) + 1
    ensures ReadDisplay(DisplayCrossword(b), size)[r][c] == b[r][c]
  {
    DisplayAt(b, size, r, c, 0);
  }

  /** The display loses nothing: the grid can be read back from it. */
  lemma DisplayRoundTrip(b: Board, size: nat)
    requires IsBoard(b, size) && size > 0
    ensures |DisplayCrossword(b)| == At(size, size - 1, size - 1) + 1
    ensures ReadDisplay(DisplayCrossword(b), size) == b
  {
    var b2 := ReadDisplay(DisplayCrossword(b), size);
    forall r, c | 0 <= r < size && 0 <= c < size
      ensures b2[r][c] == b[r][c]
    {
      ReadDisplayAt(b, size, r, c);
    }
    SameBoard(b2, b, size);
  }
}

=== FILE: greedy.dfy ===
/** The greedy engine `Crossword` (backend/crossword_generator_greedy.py).
    Words are upper-cased and placed longest first; the first is written
    horizontally in the centre; every later word is proposed across each
    letter it shares with a placed word, and the admissible proposal with the
    strictly highest overlap count wins; a word with no such proposal gets up
    to 200 random draws. Legality adds a side-adjacency rule to the bounds and
    conflict rule of the other engines. */
module Greedy {
  import opened Grids

  /** `for _ in range(200)` in `_try_random_place`. */
  const MaxTries: nat := 200

  // ---------------------------------------------------------------------------
  // `_can_place`: bounds, conflicts and side adjacency
  // ---------------------------------------------------------------------------

  /** The offsets (dr, dc) of the four side neighbours, in the order visited. */
  const Sides: seq<(int, int)> := [(-1, 0), (1, 0), (0, -1), (0, 1)]

  /** A neighbour passes when it is off the grid, blank or the letter being
      written. */
  predicate NeighbourOk(b: Board, size: nat, r: int, c: int, ch: char)
    requires IsBoard(b, size)
  {
    InBounds(size, r, c) ==> Compatible(b[r][c], ch)
  }

  predicate SidesOk(b: Board, size: nat, r: int, c: int, ch: char)
    requires IsBoard(b, size)
  {
    forall d :: 0 <= d < |Sides| ==> NeighbourOk(b, size, r + Sides[d].0, c + Sides[d].1, ch)
  }

  /** What `_can_place` demands of letter i: its cell is on the grid and blank
      or equal to it, and unless the cell already holds the letter (a
      crossing), no side neighbour holds a different letter. */
  predicate CellAdmits(b: Board, size: nat, word: string, row: int, col: int, dir: Dir, i: int)
    requires IsBoard(b, size) && 0 <= i < |word|
  {
    var r, c := RowOf(row, dir, i), ColOf(col, dir, i);
    InBounds(size, r, c) && Compatible(b[r][c], word[i]) &&
    (b[r][c] != word[i] ==> SidesOk(b, size, r, c, word[i]))
  }

  /** The greedy legality rule, letter by letter. */
  predicate Admits(b: Board, size: nat, word: string, row: int, col: int, dir: Dir)
    requires IsBoard(b, size)
  {
    forall i :: 0 <= i < |word| ==> CellAdmits(b, size, word, row, col, dir, i)
  }

  /** The greedy rule is the shared bounds-and-conflict rule plus adjacency:
      whatever it admits fits. */
  lemma AdmitsFits(b: Board, size: nat, word: string, row: int, col: int, dir: Dir)
    requires IsBoard(b, size)
    ensures Admits(b, size, word, row, col, dir) ==> Fits(b, size, word, row, col, dir)
  {
    if Admits(b, size, word, row, col, dir) {
      forall i | 0 <= i < |word|
        ensures InBounds(size, RowOf(row, dir, i), ColOf(col, dir, i))
      {
        assert CellAdmits(b, size, word, row, col, dir, i);
      }
      forall i | 0 <= i < |word|
        ensures Compatible(b[RowOf(row, dir, i)][ColOf(col, dir, i)], word[i])
      {
        assert CellAdmits(b, size, word, row, col, dir, i);
      }
    }
  }

  /** The adjacency rule and crossings: when letter i lands on a cell that
      already holds it, a blank cell next to it along the word must take
      either the blank or that same letter, since the crossing letter is a
      side neighbour of that cell. So a crossing is only admitted where the
      word repeats its crossing letter, or where the cells beside the
      crossing are already filled. */
  lemma CrossingNeighbours(b: Board, size: nat, word: string, row: int, col: int, dir: Dir, i: int)
    requires IsBoard(b, size) && Admits(b, size, word, row, col, dir) && 0 <= i < |word|
    requires Fits(b, size, word, row, col, dir) && word[i] != Blank
    requires b[RowOf(row, dir, i)][ColOf(col, dir, i)] == word[i]
    ensures 0 < i && b[RowOf(row, dir, i - 1)][ColOf(col, dir, i - 1)] == Blank ==>
              word[i - 1] == Blank || word[i - 1] == word[i]
    ensures i + 1 < |word| && b[RowOf(row, dir, i + 1)][ColOf(col, dir, i + 1)] == Blank ==>
              word[i + 1] == Blank || word[i + 1] == word[i]
  {
    var r, c := RowOf(row, dir, i), ColOf(col, dir, i);
    if 0 < i && b[RowOf(row, dir, i - 1)][ColOf(col, dir, i - 1)] == Blank && word[i - 1] != Blank {
      assert CellAdmits(b, size, word, row, col, dir, i - 1);
      var d := if dir == V then 1 else 3;
      assert NeighbourOk(b, size, RowOf(row, dir, i - 1) + Sides[d].0, ColOf(col, dir, i - 1) + Sides[d].1, word[i - 1]);
    }
    if i + 1 < |word| && b[RowOf(row, dir, i + 1)][ColOf(col, dir, i + 1)] == Blank && word[i + 1] != Blank {
      assert CellAdmits(b, size, word, row, col, dir, i + 1);
      var d := if dir == V then 0 else 2;
      assert NeighbourOk(b, size, RowOf(row, dir, i + 1) + Sides[d].0, ColOf(col, dir, i + 1) + Sides[d].1, word[i + 1]);
    }
  }

  // ---------------------------------------------------------------------------
  // `_score_position`
  // ---------------------------------------------------------------------------

  /** The number of letters whose cell is on the grid and already holds them. */
  function Overlap(b: Board, size: nat, word: string, row: int, col: int, dir: Dir): nat
    requires IsBoard(b, size)
  {
    |MatchingFrom(b, size, word, row, col, dir, 0)|
  }

  // ---------------------------------------------------------------------------
  // Proposals of `_find_best_position`: placed word k, letter i of the new
  // word, letter j of the placed word, in that loop order
  // ---------------------------------------------------------------------------

  /** The position proposed for letter i of the new word across letter j of
      p: perpendicular to p, with letter i on p's j-th cell. */
  function Propose(p: Placement, i: int, j: int): Pos
  {
    if p.dir == H then Pos(p.row - i, p.col + j, V) else Pos(p.row + j, p.col - i, H)
  }

  /** The proposal is perpendicular to p and puts letter i on p's j-th cell. */
  lemma ProposeCrosses(p: Placement, i: int, j: int)
    ensures var a := Propose(p, i, j);
            a.dir != p.dir &&
            RowOf(a.row, a.dir, i) == RowOf(p.row, p.dir, j) && ColOf(a.col, a.dir, i) == ColOf(p.col, p.dir, j)
  {
  }

  /** The concatenation f(0) + ... + f(n - 1): the order in which nested
      `for` loops produce their items. */
  function Concat<T>(f: nat -> seq<T>, n: nat): seq<T>
  {
    if n == 0 then [] else Concat(f, n - 1) + f(n - 1)
  }

  lemma {:induction false} ConcatHas<T>(f: nat -> seq<T>, n: nat, t: nat, x: T)
    requires t < n && x in f(t)
    ensures x in Concat(f, n)
  {
    if t < n - 1 {
      ConcatHas(f, n - 1, t, x);
    }
  }

  lemma {:induction false} ConcatSound<T>(f: nat -> seq<T>, n: nat, x: T) returns (t: nat)
    requires x in Concat(f, n)
    ensures t < n && x in f(t)
  {
    if x in Concat(f, n - 1) {
      t := ConcatSound(f, n - 1, x);
    } else {
      t := n - 1;
    }
  }

  /** The innermost loop, letter i of the word against letter j of p: a
      proposal when the letters are equal. */
  function PairsOf(word: string, p: Placement, i: nat): nat -> seq<Pos>
  {
    (j: nat) => if i < |word| && j < |p.word| && word[i] == p.word[j] then [Propose(p, i, j)] else []
  }

  /** The middle loop: letter i of the word against all of p. */
  function LettersOf(word: string, p: Placement): nat -> seq<Pos>
  {
    (i: nat) => Concat(PairsOf(word, p, i), |p.word|)
  }

  /** The outer loop: the word against the first k placed words. */
  function ProposalsUpTo(word: string, placed: seq<Placement>, k: nat): seq<Pos>
    requires k <= |placed|
  {
    if k == 0 then [] else ProposalsUpTo(word, placed, k - 1) + Concat(LettersOf(word, placed[k - 1]), |word|)
  }

  /** Every proposal of `_find_best_position`, in the order it tries them. */
  function Proposals(word: string, placed: seq<Placement>): seq<Pos>
  {
    ProposalsUpTo(word, placed, |placed|)
  }

  lemma {:induction false} ProposalsUpToHas(word: string, placed: seq<Placement>, k: nat, t: nat, a: Pos)
    requires t < k <= |placed| && a in Concat(LettersOf(word, placed[t]), |word|)
    ensures a in ProposalsUpTo(word, placed, k)
  {
    var prev := ProposalsUpTo(word, placed, k - 1);
    var more := Concat(LettersOf(word, placed[k - 1]), |word|);
    assert ProposalsUpTo(word, placed, k) == prev + more;
    if t < k - 1 {
      ProposalsUpToHas(word, placed, k - 1, t, a);
      assert a in prev;
    } else {
      assert a in more;
    }
  }

  lemma {:induction false} ProposalsUpToSound(word: string, placed: seq<Placement>, k: nat, a: Pos) returns (t: nat)
    requires k <= |placed| && a in ProposalsUpTo(word, placed, k)
    ensures t < k && a in Concat(LettersOf(word, placed[t]), |word|)
  {
    var prev := ProposalsUpTo(word, placed, k - 1);
    var more := Concat(LettersOf(word, placed[k - 1]), |word|);
    assert ProposalsUpTo(word, placed, k) == prev + more;
    if a in prev {
      t := ProposalsUpToSound(word, placed, k - 1, a);
    } else {
      assert a in more;
      t := k - 1;
    }
  }

  /** Letter i of the word crosses letter j of placed word k at a. */
  ghost predicate Crossing(word: string, placed: seq<Placement>, k: int, i: int, j: int, a: Pos)
  {
    0 <= k < |placed| && 0 <= i < |word| && 0 <= j < |placed[k].word| &&
    word[i] == placed[k].word[j] && a == Propose(placed[k], i, j)
  }

  /** a crosses some placed word at a letter the two words share. */
  ghost predicate Proposed(word: string, placed: seq<Placement>, a: Pos)
  {
    exists k, i, j :: Crossing(word, placed, k, i, j, a)
  }

  /** The proposals are exactly the crossings at shared letters. */
  lemma ProposalsExact(word: string, placed: seq<Placement>, a: Pos)
    ensures a in Proposals(word, placed) <==> Proposed(word, placed, a)
  {
    if a in Proposals(word, placed) {
      var k := ProposalsUpToSound(word, placed, |placed|, a);
      var p := placed[k];
      var i := ConcatSound(LettersOf(word, p), |word|, a);
      var j := ConcatSound(PairsOf(word, p, i), |p.word|, a);
      assert Crossing(word, placed, k, i, j, a);
    }
    if Proposed(word, placed, a) {
      var k, i, j :| Crossing(word, placed, k, i, j, a);
      var p := placed[k];
      ConcatHas(PairsOf(word, p, i), |p.word|, j, a);
      ConcatHas(LettersOf(word, p), |word|, i, a);
      ProposalsUpToHas(word, placed, |placed|, k, a);
    }
  }

  /** On a grid where the placed word is spelled, a proposal that fits
      overlaps it at least at the crossing (unless the shared letter is the
      blank), so the threshold `best_score = 0` with `>` only drops proposals
      that fail `_can_place`. */
  lemma ProposalOverlaps(b: Board, size: nat, word: string, p: Placement, i: int, j: int)
    requires IsBoard(b, size) && Spelled(b, size, p)
    requires 0 <= i < |word| && 0 <= j < |p.word| && word[i] == p.word[j] && word[i] != Blank
    ensures var a := Propose(p, i, j);
            InBounds(size, RowOf(a.row, a.dir, i), ColOf(a.col, a.dir, i)) &&
            Overlap(b, size, word, a.row, a.col, a.dir) >= 1
  {
    var a := Propose(p, i, j);
    ProposeCrosses(p, i, j);
    assert InBounds(size, RowOf(p.row, p.dir, j), ColOf(p.col, p.dir, j));
    assert i in MatchingFrom(b, size, word, a.row, a.col, a.dir, 0);
  }

  // ---------------------------------------------------------------------------
  // The search of `_find_best_position`
  // ---------------------------------------------------------------------------

  /** `best_score` and `best_pos`. */
  datatype Best = Best(score: int, pos: Option<Pos>)

  /** One proposal: it replaces the best so far when `_can_place` admits it
      and its score is strictly higher. */
  function Consider(b: Board, size: nat, word: string, acc: Best, a: Pos): Best
    requires IsBoard(b, size)
  {
    if Admits(b, size, word, a.row, a.col, a.dir) && Overlap(b, size, word, a.row, a.col, a.dir) > acc.score
    then Best(Overlap(b, size, word, a.row, a.col, a.dir), Some(a))
    else acc
  }

  /** The search over the first n proposals of ps, from `acc`. */
  function ScanTo(b: Board, size: nat, word: string, acc: Best, ps: seq<Pos>, n: nat): Best
    requires IsBoard(b, size) && n <= |ps|
  {
    if n == 0 then acc
    else Consider(b, size, word, ScanTo(b, size, word, acc, ps, n - 1), ps[n - 1])
  }

  /** The search over a list of proposals, from `acc`. */
  function Scan(b: Board, size: nat, word: string, acc: Best, ps: seq<Pos>): Best
    requires IsBoard(b, size)
  {
    ScanTo(b, size, word, acc, ps, |ps|)
  }

  /** The search over a prefix ignores what follows it. */
  lemma {:induction false} ScanToPrefix(b: Board, size: nat, word: string, acc: Best, ps: seq<Pos>, qs: seq<Pos>, n: nat)
    requires IsBoard(b, size) && n <= |ps|
    ensures ScanTo(b, size, word, acc, ps + qs, n) == ScanTo(b, size, word, acc, ps, n)
  {
    if n > 0 {
      ScanToPrefix(b, size, word, acc, ps, qs, n - 1);
      assert (ps + qs)[n - 1] == ps[n - 1];
    }
  }

  lemma ScanSnoc(b: Board, size: nat, word: string, acc: Best, ps: seq<Pos>, a: Pos)
    requires IsBoard(b, size)
    ensures Scan(b, size, word, acc, ps + [a]) == Consider(b, size, word, Scan(b, size, word, acc, ps), a)
  {
    ScanToPrefix(b, size, word, acc, ps, [a], |ps|);
    assert (ps + [a])[|ps|] == a;
  }

  lemma {:induction false} ScanToAppend(b: Board, size: nat, word: string, acc: Best, ps: seq<Pos>, qs: seq<Pos>, m: nat)
    requires IsBoard(b, size) && m <= |qs|
    ensures ScanTo(b, size, word, acc, ps + qs, |ps| + m) == ScanTo(b, size, word, Scan(b, size, word, acc, ps), qs, m)
  {
    if m == 0 {
      ScanToPrefix(b, size, word, acc, ps, qs, |ps|);
    } else {
      ScanToAppend(b, size, word, acc, ps, qs, m - 1);
      assert (ps + qs)[|ps| + m - 1] == qs[m - 1];
    }
  }

  /** Searching a concatenation is searching the second part from where the
      first left off. */
  lemma ScanAppend(b: Board, size: nat, word: string, acc: Best, ps: seq<Pos>, qs: seq<Pos>)
    requires IsBoard(b, size)
    ensures Scan(b, size, word, acc, ps + qs) == Scan(b, size, word, Scan(b, size, word, acc, ps), qs)
  {
    ScanToAppend(b, size, word, acc, ps, qs, |qs|);
  }

  /** The innermost loop of `_find_best_position` as a fold: letter i of
      the word against the first j letters of p. */
  function ScanPairs(b: Board, size: nat, word: string, acc: Best, p: Placement, i: nat, j: nat): Best
    requires IsBoard(b, size)
  {
    if j == 0 then acc
    else
      var a := ScanPairs(b, size, word, acc, p, i, j - 1);
      if i < |word| && j - 1 < |p.word| && word[i] == p.word[j - 1]
      then Consider(b, size, word, a, Propose(p, i, j - 1))
      else a
  }

  /** The middle loop: the first i letters of the word against p. */
  function ScanLetters(b: Board, size: nat, word: string, acc: Best, p: Placement, i: nat): Best
    requires IsBoard(b, size)
  {
    if i == 0 then acc
    else ScanPairs(b, size, word, ScanLetters(b, size, word, acc, p, i - 1), p, i - 1, |p.word|)
  }

  /** The outer loop: the word against the first k placed words. */
  function ScanPlaced(b: Board, size: nat, word: string, acc: Best, placed: seq<Placement>, k: nat): Best
    requires IsBoard(b, size) && k <= |placed|
  {
    if k == 0 then acc
    else ScanLetters(b, size, word, ScanPlaced(b, size, word, acc, placed, k - 1), placed[k - 1], |word|)
  }

  /** The innermost fold is the search over the proposals of letter i. */
  lemma {:induction false} ScanPairsConcat(b: Board, size: nat, word: string, acc: Best, p: Placement, i: nat, j: nat)
    requires IsBoard(b, size)
    ensures ScanPairs(b, size, word, acc, p, i, j) == Scan(b, size, word, acc, Concat(PairsOf(word, p, i), j))
  {
    if j > 0 {
      var f := PairsOf(word, p, i);
      var hit := i < |word| && j - 1 < |p.word| && word[i] == p.word[j - 1];
      assert f(j - 1) == if hit then [Propose(p, i, j - 1)] else [];
      ScanPairsConcat(b, size, word, acc, p, i, j - 1);
      ScanAppend(b, size, word, acc, Concat(f, j - 1), f(j - 1));
      if hit {
        var r := Scan(b, size, word, acc, Concat(f, j - 1));
        assert ScanTo(b, size, word, r, [Propose(p, i, j - 1)], 0) == r;
        assert Scan(b, size, word, r, [Propose(p, i, j - 1)]) == Consider(b, size, word, r, Propose(p, i, j - 1));
      }
    }
  }

  /** The middle fold is the search over the proposals of p. */
  lemma {:induction false} ScanLettersConcat(b: Board, size: nat, word: string, acc: Best, p: Placement, i: nat)
    requires IsBoard(b, size)
    ensures ScanLetters(b, size, word, acc, p, i) == Scan(b, size, word, acc, Concat(LettersOf(word, p), i))
  {
    if i > 0 {
      var f := LettersOf(word, p);
      assert f(i - 1) == Concat(PairsOf(word, p, i - 1), |p.word|);
      var mid := ScanLetters(b, size, word, acc, p, i - 1);
      ScanLettersConcat(b, size, word, acc, p, i - 1);
      ScanPairsConcat(b, size, word, mid, p, i - 1, |p.word|);
      ScanAppend(b, size, word, acc, Concat(f, i - 1), f(i - 1));
    }
  }

  /** The outer fold over the first k placed words agrees with the search
      over their proposals. */
  ghost predicate FoldsAgree(b: Board, size: nat, word: string, acc: Best, placed: seq<Placement>, k: nat)
    requires IsBoard(b, size) && k <= |placed|
  {
    ScanPlaced(b, size, word, acc, placed, k) == Scan(b, size, word, acc, ProposalsUpTo(word, placed, k))
  }

  /** One more placed word: its proposals come after the earlier ones, in
      both folds. */
  lemma ScanPlacedStep(b: Board, size: nat, word: string, acc: Best, placed: seq<Placement>, k: nat)
    requires IsBoard(b, size) && 0 < k <= |placed|
    requires FoldsAgree(b, size, word, acc, placed, k - 1)
    ensures FoldsAgree(b, size, word, acc, placed, k)
  {
    var mid := ScanPlaced(b, size, word, acc, placed, k - 1);
    var more := Concat(LettersOf(word, placed[k - 1]), |word|);
    ScanLettersConcat(b, size, word, mid, placed[k - 1], |word|);
    ScanAppend(b, size, word, acc, ProposalsUpTo(word, placed, k - 1), more);
  }

  /** No placed word: no proposal, and the search keeps `acc`. */
  lemma ScanPlacedNone(b: Board, size: nat, word: string, acc: Best, placed: seq<Placement>)
    requires IsBoard(b, size)
    ensures FoldsAgree(b, size, word, acc, placed, 0)
  {
  }

  /** The outer fold is the search over every proposal. */
  lemma {:induction false} ScanPlacedConcat(b: Board, size: nat, word: string, acc: Best, placed: seq<Placement>, k: nat)
    requires IsBoard(b, size) && k <= |placed|
    ensures FoldsAgree(b, size, word, acc, placed, k)
  {
    if k > 0 {
      ScanPlacedConcat(b, size, word, acc, placed, k - 1);
      ScanPlacedStep(b, size, word, acc, placed, k);
    } else {
      ScanPlacedNone(b, size, word, acc, placed);
    }
  }

  /** Index n of ps is the winner: admitted, of positive score, no admitted
      proposal scores more, and every earlier admitted one scores less. */
  ghost predicate IsBest(b: Board, size: nat, word: string, ps: seq<Pos>, n: int)
    requires IsBoard(b, size)
  {
    0 <= n < |ps| &&
    Admits(b, size, word, ps[n].row, ps[n].col, ps[n].dir) &&
    Overlap(b, size, word, ps[n].row, ps[n].col, ps[n].dir) > 0 &&
    (forall m :: 0 <= m < |ps| && Admits(b, size, word, ps[m].row, ps[m].col, ps[m].dir) ==>
       Overlap(b, size, word, ps[m].row, ps[m].col, ps[m].dir) <= Overlap(b, size, word, ps[n].row, ps[n].col, ps[n].dir)) &&
    (forall m :: 0 <= m < n && Admits(b, size, word, ps[m].row, ps[m].col, ps[m].dir) ==>
       Overlap(b, size, word, ps[m].row, ps[m].col, ps[m].dir) < Overlap(b, size, word, ps[n].row, ps[n].col, ps[n].dir))
  }

  /** What the search returns from (0, None): nothing exactly when every
      admitted proposal scores 0; otherwise the first admitted proposal of
      highest score, with that score. */
  lemma {:induction false} ScanBest(b: Board, size: nat, word: string, ps: seq<Pos>)
    requires IsBoard(b, size)
    ensures var r := Scan(b, size, word, Best(0, None), ps);
            && 0 <= r.score
            && (forall m :: 0 <= m < |ps| && Admits(b, size, word, ps[m].row, ps[m].col, ps[m].dir) ==>
                  Overlap(b, size, word, ps[m].row, ps[m].col, ps[m].dir) <= r.score)
            && (r.pos == None ==> r.score == 0)
            && (r.pos != None ==> exists n :: IsBest(b, size, word, ps, n) && r.pos == Some(ps[n]) &&
                                               r.score == Overlap(b, size, word, ps[n].row, ps[n].col, ps[n].dir))
    decreases |ps|
  {
    if ps != [] {
      var q, a := ps[..|ps| - 1], ps[|ps| - 1];
      assert ps == q + [a];
      ScanSnoc(b, size, word, Best(0, None), q, a);
      ScanBest(b, size, word, q);
      var r0 := Scan(b, size, word, Best(0, None), q);
      var r := Scan(b, size, word, Best(0, None), ps);
      assert forall m :: 0 <= m < |q| ==> ps[m] == q[m];
      if Admits(b, size, word, a.row, a.col, a.dir) && Overlap(b, size, word, a.row, a.col, a.dir) > r0.score {
        assert IsBest(b, size, word, ps, |ps| - 1);
      } else if r.pos != None {
        var n :| IsBest(b, size, word, q, n) && r0.pos == Some(q[n]) &&
                 r0.score == Overlap(b, size, word, q[n].row, q[n].col, q[n].dir);
        assert IsBest(b, size, word, ps, n);
      }
    }
  }

  // ---------------------------------------------------------------------------
  // The state `place_words` evolves and its specification
  // ---------------------------------------------------------------------------

  /** The fields the engine updates: grid and placed_words. */
  datatype GreedyState = GreedyState(grid: Board, placed: seq<Placement>)

  /** The state the constructor builds. */
  function Initial(size: nat): GreedyState
  {
    GreedyState(BlankBoard(size), [])
  }

  /** The invariant `place_words` keeps: a size × size grid with every
      recorded placement on it and spelled. */
  ghost predicate Invariant(s: GreedyState, size: nat)
  {
    IsBoard(s.grid, size) && forall p :: p in s.placed ==> Spelled(s.grid, size, p)
  }

  /** `_place_word` followed by appending the placement. */
  function Append(s: GreedyState, word: string, a: Pos): GreedyState
  {
    GreedyState(Written(s.grid, word, a.row, a.col, a.dir), s.placed + [Placement(word, a.row, a.col, a.dir)])
  }

  lemma AppendShape(s: GreedyState, size: nat, word: string, a: Pos)
    requires IsBoard(s.grid, size)
    ensures IsBoard(Append(s, word, a).grid, size)
  {
    WrittenCells(s.grid, word, a.row, a.col, a.dir);
  }

  /** Appending a placement that fits keeps the invariant and every letter. */
  lemma AppendPreserves(s: GreedyState, size: nat, word: string, a: Pos)
    requires Invariant(s, size) && Fits(s.grid, size, word, a.row, a.col, a.dir)
    ensures Invariant(Append(s, word, a), size)
    ensures Keeps(s.grid, Append(s, word, a).grid)
  {
    WriteFitting(s.grid, size, word, a.row, a.col, a.dir);
  }

  /** `_find_best_position` on the state s. */
  function BestPosition(s: GreedyState, size: nat, word: string): Option<Pos>
    requires IsBoard(s.grid, size)
  {
    Scan(s.grid, size, word, Best(0, None), Proposals(word, s.placed)).pos
  }

  /** The position found is a crossing proposal that `_can_place` admits, of
      positive score, no admitted proposal scoring more and every earlier one
      less; none is found exactly when every admitted proposal scores 0. */
  lemma BestPositionChosen(s: GreedyState, size: nat, word: string)
    requires IsBoard(s.grid, size)
    ensures var ps := Proposals(word, s.placed);
            && (BestPosition(s, size, word) == None <==>
                  forall m :: 0 <= m < |ps| && Admits(s.grid, size, word, ps[m].row, ps[m].col, ps[m].dir) ==>
                    Overlap(s.grid, size, word, ps[m].row, ps[m].col, ps[m].dir) == 0)
            && (BestPosition(s, size, word) != None ==>
                  exists n :: IsBest(s.grid, size, word, ps, n) && BestPosition(s, size, word) == Some(ps[n]))
  {
    ScanBest(s.grid, size, word, Proposals(word, s.placed));
  }

  /** Under the invariant and for a word without blanks, nothing is found
      exactly when no crossing proposal is admitted. */
  lemma NoBestMeansNoCrossing(s: GreedyState, size: nat, word: string)
    requires Invariant(s, size) && forall i :: 0 <= i < |word| ==> word[i] != Blank
    ensures var ps := Proposals(word, s.placed);
            BestPosition(s, size, word) == None <==>
              forall m :: 0 <= m < |ps| ==> !Admits(s.grid, size, word, ps[m].row, ps[m].col, ps[m].dir)
  {
    var ps := Proposals(word, s.placed);
    BestPositionChosen(s, size, word);
    forall m | 0 <= m < |ps| && Admits(s.grid, size, word, ps[m].row, ps[m].col, ps[m].dir)
      ensures Overlap(s.grid, size, word, ps[m].row, ps[m].col, ps[m].dir) >= 1
    {
      ProposalsExact(word, s.placed, ps[m]);
      var k, i, j :| Crossing(word, s.placed, k, i, j, ps[m]);
      ProposalOverlaps(s.grid, size, word, s.placed[k], i, j);
    }
  }

  /** `_try_random_place` from draw k on: append the first draw `_can_place`
      admits, or change nothing. */
  function RandomFrom(s: GreedyState, size: nat, word: string, tries: seq<Pos>, k: nat): GreedyState
    requires IsBoard(s.grid, size) && k <= |tries|
    decreases |tries| - k
  {
    if k == |tries| then s
    else if Admits(s.grid, size, word, tries[k].row, tries[k].col, tries[k].dir) then Append(s, word, tries[k])
    else RandomFrom(s, size, word, tries, k + 1)
  }

  /** Draw n is the first of `tries` that `_can_place` admits. */
  ghost predicate FirstAdmitted(b: Board, size: nat, word: string, tries: seq<Pos>, n: int)
    requires IsBoard(b, size)
  {
    0 <= n < |tries| &&
    Admits(b, size, word, tries[n].row, tries[n].col, tries[n].dir) &&
    forall m :: 0 <= m < n ==> !Admits(b, size, word, tries[m].row, tries[m].col, tries[m].dir)
  }

  lemma {:induction false} RandomFromFit(s: GreedyState, size: nat, word: string, tries: seq<Pos>, k: nat, n: nat)
    requires IsBoard(s.grid, size) && k <= n && FirstAdmitted(s.grid, size, word, tries, n)
    ensures RandomFrom(s, size, word, tries, k) == Append(s, word, tries[n])
    decreases n - k
  {
    if k < n {
      assert !Admits(s.grid, size, word, tries[k].row, tries[k].col, tries[k].dir);
      RandomFromFit(s, size, word, tries, k + 1, n);
    }
  }

  lemma {:induction false} RandomFromNone(s: GreedyState, size: nat, word: string, tries: seq<Pos>, k: nat)
    requires IsBoard(s.grid, size) && k <= |tries|
    requires forall n :: k <= n < |tries| ==> !Admits(s.grid, size, word, tries[n].row, tries[n].col, tries[n].dir)
    ensures RandomFrom(s, size, word, tries, k) == s
    decreases |tries| - k
  {
    if k < |tries| {
      RandomFromNone(s, size, word, tries, k + 1);
    }
  }

  /** The random placement appends exactly the first admitted draw, and
      leaves the state untouched when no draw is admitted. */
  lemma RandomFirst(s: GreedyState, size: nat, word: string, tries: seq<Pos>)
    requires IsBoard(s.grid, size)
    ensures forall n :: FirstAdmitted(s.grid, size, word, tries, n) ==>
              RandomFrom(s, size, word, tries, 0) == Append(s, word, tries[n])
    ensures (forall n :: 0 <= n < |tries| ==> !Admits(s.grid, size, word, tries[n].row, tries[n].col, tries[n].dir)) ==>
              RandomFrom(s, size, word, tries, 0) == s
  {
    forall n | FirstAdmitted(s.grid, size, word, tries, n)
      ensures RandomFrom(s, size, word, tries, 0) == Append(s, word, tries[n])
    {
      RandomFromFit(s, size, word, tries, 0, n);
    }
    if forall n :: 0 <= n < |tries| ==> !Admits(s.grid, size, word, tries[n].row, tries[n].col, tries[n].dir) {
      RandomFromNone(s, size, word, tries, 0);
    }
  }

  lemma {:induction false} RandomPreserves(s: GreedyState, size: nat, word: string, tries: seq<Pos>, k: nat)
    requires Invariant(s, size) && k <= |tries|
    ensures var t := RandomFrom(s, size, word, tries, k);
            && Invariant(t, size)
            && Keeps(s.grid, t.grid)
            && s.placed <= t.placed && |t.placed| <= |s.placed| + 1
            && forall j :: |s.placed| <= j < |t.placed| ==> t.placed[j].word == word
    decreases |tries| - k
  {
    if k < |tries| {
      var a := tries[k];
      if Admits(s.grid, size, word, a.row, a.col, a.dir) {
        AdmitsFits(s.grid, size, word, a.row, a.col, a.dir);
        AppendPreserves(s, size, word, a);
      } else {
        RandomPreserves(s, size, word, tries, k + 1);
      }
    } else {
      assert Keeps(s.grid, s.grid);
    }
  }

  lemma {:induction false} RandomShape(s: GreedyState, size: nat, word: string, tries: seq<Pos>, k: nat)
    requires IsBoard(s.grid, size) && k <= |tries|
    ensures IsBoard(RandomFrom(s, size, word, tries, k).grid, size)
    decreases |tries| - k
  {
    if k < |tries| {
      RandomShape(s, size, word, tries, k + 1);
      AppendShape(s, size, word, tries[k]);
    }
  }

  /** One iteration of `place_words`' loop: append the best crossing, or
      fall back to random placement. */
  function PlaceNextSpec(s: GreedyState, size: nat, word: string, tries: seq<Pos>): GreedyState
    requires IsBoard(s.grid, size)
  {
    match BestPosition(s, size, word)
    case Some(a) => Append(s, word, a)
    case None => RandomFrom(s, size, word, tries, 0)
  }

  lemma PlaceNextShape(s: GreedyState, size: nat, word: string, tries: seq<Pos>)
    requires IsBoard(s.grid, size)
    ensures IsBoard(PlaceNextSpec(s, size, word, tries).grid, size)
  {
    match BestPosition(s, size, word)
    case Some(a) => AppendShape(s, size, word, a);
    case None => RandomShape(s, size, word, tries, 0);
  }

  /** One word keeps the invariant, keeps every letter, and records at most
      one placement, of that word. */
  lemma PlaceNextPreserves(s: GreedyState, size: nat, word: string, tries: seq<Pos>)
    requires Invariant(s, size)
    ensures var t := PlaceNextSpec(s, size, word, tries);
            && Invariant(t, size)
            && Keeps(s.grid, t.grid)
            && s.placed <= t.placed && |t.placed| <= |s.placed| + 1
            && forall j :: |s.placed| <= j < |t.placed| ==> t.placed[j].word == word
  {
    match BestPosition(s, size, word)
    case Some(a) =>
      BestPositionChosen(s, size, word);
      AdmitsFits(s.grid, size, word, a.row, a.col, a.dir);
      AppendPreserves(s, size, word, a);
    case None =>
      RandomPreserves(s, size, word, tries, 0);
  }

  /** Words k.. of `place_words`' loop, word k drawing from `draws[k]`. */
  function PlaceFrom(s: GreedyState, size: nat, words: seq<string>, draws: seq<seq<Pos>>, k: nat): GreedyState
    requires IsBoard(s.grid, size) && |draws| == |words| && k <= |words|
    decreases |words| - k
  {
    if k == |words| then s
    else
      var t := PlaceNextSpec(s, size, words[k], draws[k]);
      assert IsBoard(t.grid, size) by { PlaceNextShape(s, size, words[k], draws[k]); }
      PlaceFrom(t, size, words, draws, k + 1)
  }

  /** The start of `place_words`: the first word goes horizontally, centred
      on the grid. */
  function Seed(size: nat, first: string): GreedyState
  {
    Append(Initial(size), first, Pos(size / 2, (size - |first|) / 2, H))
  }

  /** `place_words` on a fresh engine, for words already upper-cased and
      sorted. */
  function PlaceWordsSpec(words: seq<string>, size: nat, draws: seq<seq<Pos>>): GreedyState
    requires words != [] && |draws| == |words|
  {
    var s1 := Seed(size, words[0]);
    assert IsBoard(s1.grid, size) by { AppendShape(Initial(size), size, words[0], Pos(size / 2, (size - |words[0]|) / 2, H)); }
    PlaceFrom(s1, size, words, draws, 1)
  }

  lemma SeedValid(size: nat, first: string)
    requires |first| <= size
    ensures Invariant(Seed(size, first), size)
    ensures Seed(size, first).placed == [Placement(first, size / 2, (size - |first|) / 2, H)]
  {
    CentredInBounds(size, |first|);
    BlankFits(size, first, size / 2, (size - |first|) / 2, H);
    AppendPreserves(Initial(size), size, first, Pos(size / 2, (size - |first|) / 2, H));
  }

  lemma {:induction false} PlaceFromPreserves(s: GreedyState, size: nat, words: seq<string>, draws: seq<seq<Pos>>, k: nat)
    requires Invariant(s, size) && |draws| == |words| && k <= |words|
    ensures var t := PlaceFrom(s, size, words, draws, k);
            && Invariant(t, size)
            && Keeps(s.grid, t.grid)
            && s.placed <= t.placed && |t.placed| <= |s.placed| + (|words| - k)
            && forall j :: |s.placed| <= j < |t.placed| ==> t.placed[j].word in words[k..]
    decreases |words| - k
  {
    if k < |words| {
      var t := PlaceNextSpec(s, size, words[k], draws[k]);
      PlaceNextPreserves(s, size, words[k], draws[k]);
      PlaceFromPreserves(t, size, words, draws, k + 1);
      var u := PlaceFrom(t, size, words, draws, k + 1);
      forall j | |s.placed| <= j < |u.placed|
        ensures u.placed[j].word in words[k..]
      {
        if j < |t.placed| {
          assert u.placed[j] == t.placed[j];
          assert words[k..][0] == words[k];
        } else {
          assert u.placed[j].word in words[k + 1..];
          assert words[k + 1..] == words[k..][1..];
        }
      }
      assert Keeps(s.grid, u.grid);
    } else {
      assert Keeps(s.grid, s.grid);
    }
  }

  /** One word records at most one entry, of that word, and keeps the
      invariant. */
  lemma PlaceNextRecords(s: GreedyState, size: nat, word: string, tries: seq<Pos>)
    requires Invariant(s, size)
    ensures var t := PlaceNextSpec(s, size, word, tries);
            Invariant(t, size) && RecordsAtMostOne(s.placed, t.placed, word)
  {
    PlaceNextPreserves(s, size, word, tries);
  }

  /** The loop over words k.. records at most one entry per word, in order:
      the new entries' words are a subsequence of words[k..]. */
  lemma {:induction false} PlaceFromOrder(s: GreedyState, size: nat, words: seq<string>, draws: seq<seq<Pos>>, k: nat, r: GreedyState)
    requires Invariant(s, size) && |draws| == |words| && k <= |words|
    requires r == PlaceFrom(s, size, words, draws, k)
    ensures s.placed <= r.placed && Subsequence(WordsOf(r.placed[|s.placed|..]), words[k..])
    decreases |words| - k
  {
    if k < |words| {
      var t := PlaceNextSpec(s, size, words[k], draws[k]);
      PlaceNextRecords(s, size, words[k], draws[k]);
      assert r == PlaceFrom(t, size, words, draws, k + 1);
      PlaceFromOrder(t, size, words, draws, k + 1, r);
      WordsOfStep(s.placed, t.placed, r.placed, words, k);
    } else {
      assert WordsOf(s.placed[|s.placed|..]) == [];
    }
  }

  /** `place_words` records the seed word, then at most one entry per later
      word, in the words' order: the recorded words are a subsequence of the
      words. */
  lemma PlaceWordsOrder(words: seq<string>, size: nat, draws: seq<seq<Pos>>)
    requires words != [] && |draws| == |words| && |words[0]| <= size
    ensures Subsequence(WordsOf(PlaceWordsSpec(words, size, draws).placed), words)
  {
    var s1 := Seed(size, words[0]);
    SeedValid(size, words[0]);
    PlaceFromOrder(s1, size, words, draws, 1, PlaceWordsSpec(words, size, draws));
    var u := PlaceWordsSpec(words, size, draws).placed;
    WordsOfStep([], s1.placed, u, words, 0);
    assert u[0..] == u && words[0..] == words;
  }

  /** What `place_words` returns: every placement on the grid and spelled;
      the recorded words a subsequence of the words (at most one entry per
      word, in order), so no more placements than words, each of a given
      word; the first one the first word, horizontal and centred. */
  lemma PlaceWordsProperties(words: seq<string>, size: nat, draws: seq<seq<Pos>>)
    requires words != [] && |draws| == |words| && |words[0]| <= size
    ensures var t := PlaceWordsSpec(words, size, draws);
            && Invariant(t, size)
            && Subsequence(WordsOf(t.placed), words)
            && 1 <= |t.placed| <= |words|
            && (forall p :: p in t.placed ==> p.word in words)
            && t.placed[0] == Placement(words[0], size / 2, (size - |words[0]|) / 2, H)
  {
    var s1 := Seed(size, words[0]);
    SeedValid(size, words[0]);
    PlaceFromPreserves(s1, size, words, draws, 1);
    var t := PlaceWordsSpec(words, size, draws);
    assert t.placed[0] == s1.placed[0];
    PlaceWordsOrder(words, size, draws);
    PlacedWithin(t.placed, words);
  }

  // ---------------------------------------------------------------------------
  // The class
  // ---------------------------------------------------------------------------

  class Crossword {
    const size: nat
    var grid: Board
    var placedWords: seq<Placement>

    function State(): GreedyState
      reads this
    {
      GreedyState(grid, placedWords)
    }

    /** `__init__`: a blank size × size grid and no placements. */
    constructor (size: nat)
      ensures this.size == size && State() == Initial(size)
    {
      this.size := size;
      grid := BlankBoard(size);
      placedWords := [];
    }

    /** `_can_place`. */
    method CanPlace(word: string, row: int, col: int, dir: Dir) returns (ok: bool)
      requires IsBoard(grid, size)
      ensures ok <==> Admits(grid, size, word, row, col, dir)
    {
      for i := 0 to |word|
        invariant forall k :: 0 <= k < i ==> CellAdmits(grid, size, word, row, col, dir, k)
      {
        var r, c := RowOf(row, dir, i), ColOf(col, dir, i);
        if !InBounds(size, r, c) {
          assert !CellAdmits(grid, size, word, row, col, dir, i);
          return false;
        }
        var cell := grid[r][c];
        if cell != Blank && cell != word[i] {
          assert !CellAdmits(grid, size, word, row, col, dir, i);
          return false;
        }
        for d := 0 to |Sides|
          invariant cell != word[i] ==> forall e :: 0 <= e < d ==> NeighbourOk(grid, size, r + Sides[e].0, c + Sides[e].1, word[i])
        {
          var rr, cc := r + Sides[d].0, c + Sides[d].1;
          if InBounds(size, rr, cc) {
            var neighbour := grid[rr][cc];
            if neighbour != Blank && neighbour != word[i] {
              if !(cell == word[i]) {
                assert !NeighbourOk(grid, size, rr, cc, word[i]);
                assert !CellAdmits(grid, size, word, row, col, dir, i);
                return false;
              }
            }
          }
        }
      }
      return true;
    }

    /** `_score_position`: counts the letters whose cell is on the grid and
        already holds them. */
    method ScorePosition(word: string, row: int, col: int, dir: Dir) returns (score: nat)
      requires IsBoard(grid, size)
      ensures score == Overlap(grid, size, word, row, col, dir)
      ensures score <= |word|
    {
      score := 0;
      for i := 0 to |word|
        invariant score + |MatchingFrom(grid, size, word, row, col, dir, i)| == |MatchingFrom(grid, size, word, row, col, dir, 0)|
        invariant score <= i
      {
        MatchingSplit(grid, size, word, row, col, dir, i);
        var r, c := RowOf(row, dir, i), ColOf(col, dir, i);
        if InBounds(size, r, c) && grid[r][c] == word[i] {
          score := score + 1;
        }
      }
      assert MatchingFrom(grid, size, word, row, col, dir, |word|) == {};
    }

    /** `_find_best_position`: the three nested loops over placed words,
        letters of the word and letters of the placed word. */
    method FindBestPosition(word: string) returns (best: Option<Pos>)
      requires IsBoard(grid, size)
      ensures best == BestPosition(State(), size, word)
    {
      var bestScore: int := 0;
      best := None;
      for k := 0 to |placedWords|
        invariant Best(bestScore, best) == ScanPlaced(grid, size, word, Best(0, None), placedWords, k)
      {
        bestScore, best := ScanPlacement(word, placedWords[k], bestScore, best);
      }
      ScanPlacedConcat(grid, size, word, Best(0, None), placedWords, |placedWords|);
    }

    /** The two inner loops of `_find_best_position` for one placed word. */
    method ScanPlacement(word: string, p: Placement, score0: int, pos0: Option<Pos>) returns (bestScore: int, best: Option<Pos>)
      requires IsBoard(grid, size)
      ensures Best(bestScore, best) == ScanLetters(grid, size, word, Best(score0, pos0), p, |word|)
    {
      bestScore, best := score0, pos0;
      for i := 0 to |word|
        invariant Best(bestScore, best) == ScanLetters(grid, size, word, Best(score0, pos0), p, i)
      {
        bestScore, best := ScanLetter(word, p, i, bestScore, best);
      }
    }

    /** The innermost loop: letter i of the word against every letter of p. */
    method ScanLetter(word: string, p: Placement, i: nat, score0: int, pos0: Option<Pos>) returns (bestScore: int, best: Option<Pos>)
      requires IsBoard(grid, size) && i < |word|
      ensures Best(bestScore, best) == ScanPairs(grid, size, word, Best(score0, pos0), p, i, |p.word|)
    {
      bestScore, best := score0, pos0;
      for j := 0 to |p.word|
        invariant Best(bestScore, best) == ScanPairs(grid, size, word, Best(score0, pos0), p, i, j)
      {
        if word[i] == p.word[j] {
          var pos := Propose(p, i, j);
          var ok := CanPlace(word, pos.row, pos.col, pos.dir);
          if ok {
            var score := ScorePosition(word, pos.row, pos.col, pos.dir);
            if score > bestScore {
              bestScore := score;
              best := Some(pos);
            }
          }
        }
      }
    }

    /** `_place_word`: writes each letter; it needs every covered cell on the
        grid. */
    method PlaceWord(word: string, row: int, col: int, dir: Dir)
      requires IsBoard(grid, size) && AllInBounds(size, |word|, row, col, dir)
      modifies this`grid
      ensures grid == Written(old(grid), word, row, col, dir)
      ensures IsBoard(grid, size)
    {
      assert word[..0] == [];
      for i := 0 to |word|
        invariant grid == Written(old(grid), word[..i], row, col, dir)
        invariant IsBoard(grid, size)
      {
        var r, c := RowOf(row, dir, i), ColOf(col, dir, i);
        assert InBounds(size, r, c);
        WrittenPrefixStep(old(grid), word, row, col, dir, i);
        grid := grid[r := grid[r][c := word[i]]];
      }
      assert word[..|word|] == word;
    }

    /** `_try_random_place`: up to 200 draws, appending the first admitted. */
    method TryRandomPlace(word: string, tries: seq<Pos>) returns (ok: bool)
      requires IsBoard(grid, size)
      requires |tries| == MaxTries && forall a :: a in tries ==> InSampledRange(a, |word|, size)
      modifies this`grid, this`placedWords
      ensures State() == RandomFrom(old(State()), size, word, tries, 0)
      ensures ok <==> exists n :: 0 <= n < |tries| && Admits(old(grid), size, word, tries[n].row, tries[n].col, tries[n].dir)
      ensures ok <==> |placedWords| == |old(placedWords)| + 1
    {
      for k := 0 to |tries|
        invariant State() == old(State())
        invariant RandomFrom(State(), size, word, tries, k) == RandomFrom(State(), size, word, tries, 0)
        invariant forall n :: 0 <= n < k ==> !Admits(grid, size, word, tries[n].row, tries[n].col, tries[n].dir)
      {
        var a := tries[k];
        ok := CanPlace(word, a.row, a.col, a.dir);
        if ok {
          AdmitsFits(grid, size, word, a.row, a.col, a.dir);
          PlaceWord(word, a.row, a.col, a.dir);
          placedWords := placedWords + [Placement(word, a.row, a.col, a.dir)];
          return;
        }
      }
      return false;
    }

    /** One iteration of `place_words`' loop. */
    method PlaceNext(word: string, tries: seq<Pos>) returns (ok: bool)
      requires IsBoard(grid, size)
      requires |tries| == MaxTries && forall a :: a in tries ==> InSampledRange(a, |word|, size)
      modifies this`grid, this`placedWords
      ensures State() == PlaceNextSpec(old(State()), size, word, tries)
      ensures IsBoard(grid, size)
      ensures ok <==> |placedWords| == |old(placedWords)| + 1
    {
      PlaceNextShape(State(), size, word, tries);
      var best := FindBestPosition(word);
      if best.Some? {
        var a := best.value;
        BestPositionChosen(State(), size, word);
        AdmitsFits(grid, size, word, a.row, a.col, a.dir);
        PlaceWord(word, a.row, a.col, a.dir);
        placedWords := placedWords + [Placement(word, a.row, a.col, a.dir)];
        ok := true;
      } else {
        ok := TryRandomPlace(word, tries);
      }
    }

    /** `place_words` on a freshly constructed engine (the way
        `create_crossword` uses it): returns the grid and the placements.
        `words[0]` of an empty list raises, so there is at least one word. */
    method PlaceWords(ws: seq<string>, draws: seq<seq<Pos>>) returns (g: Board, ps: seq<Placement>)
      requires State() == Initial(size)
      requires ws != [] && |SortedWords(ws)[0]| <= size
      requires |draws| == |ws|
      requires forall k :: 1 <= k < |ws| ==>
                 |draws[k]| == MaxTries && forall a :: a in draws[k] ==> InSampledRange(a, |SortedWords(ws)[k]|, size)
      modifies this`grid, this`placedWords
      ensures State() == PlaceWordsSpec(SortedWords(ws), size, draws)
      ensures g == grid && ps == placedWords
    {
      var words := SortByKeyDesc(UpperAll(ws), Length);
      var first := words[0];
      var a := Pos(size / 2, (size - |first|) / 2, H);
      CentredInBounds(size, |first|);
      PlaceWord(first, a.row, a.col, a.dir);
      placedWords := placedWords + [Placement(first, a.row, a.col, a.dir)];
      assert State() == Seed(size, first);
      for k := 1 to |words|
        invariant IsBoard(grid, size)
        invariant PlaceFrom(State(), size, words, draws, k) == PlaceWordsSpec(words, size, draws)
      {
        var _ := PlaceNext(words[k], draws[k]);
      }
      return grid, placedWords;
    }
  }

  /** `create_crossword` of this file: build an engine and place the words. */
  method CreateCrossword(ws: seq<string>, size: nat, draws: seq<seq<Pos>>) returns (grid: Board, placed: seq<Placement>)
    requires ws != [] && |SortedWords(ws)[0]| <= size
    requires |draws| == |ws|
    requires forall k :: 1 <= k < |ws| ==>
               |draws[k]| == MaxTries && forall a :: a in draws[k] ==> InSampledRange(a, |SortedWords(ws)[k]|, size)
    ensures IsBoard(grid, size)
    ensures forall p :: p in placed ==> Spelled(grid, size, p)
    ensures 1 <= |placed| <= |ws|
    ensures forall p :: p in placed ==> p.word in SortedWords(ws)
    ensures Subsequence(WordsOf(placed), SortedWords(ws))
    ensures placed[0] == Placement(SortedWords(ws)[0], size / 2, (size - |SortedWords(ws)[0]|) / 2, H)
  {
    var engine := new Crossword(size);
    grid, placed := engine.PlaceWords(ws, draws);
    PlaceWordsProperties(SortedWords(ws), size, draws);
  }
}

=== FILE: greedy_example.dfy ===
/** A worked instance of the greedy engine's legality rule
    (backend/crossword_generator_greedy.py, `_can_place`) against the
    proposals of `_find_best_position`: CAT seeded across the middle of a
    5 × 5 grid, and TEA proposed down through CAT's A. */
module GreedyExample {
  import opened Grids
  import opened Greedy

  /** The grid after seeding CAT: the cells above the A at (2, 2) are blank. */
  lemma SeededCat()
    ensures var b := Seed(5, "CAT").grid;
            IsBoard(b, 5) && b[0][2] == Blank && b[1][2] == Blank && b[2][2] == 'A'
  {
    var b0 := BlankBoard(5);
    BlankFits(5, "CAT", 2, 1, H);
    WriteFitting(b0, 5, "CAT", 2, 1, H);
    WrittenCells(b0, "CAT", 2, 1, H);
    var b := Written(b0, "CAT", 2, 1, H);
    assert !Covers(3, 2, 1, H, 0, 2) && !Covers(3, 2, 1, H, 1, 2);
    assert b[RowOf(2, H, 1)][ColOf(1, H, 1)] == 'A';
  }

  /** TEA's A against CAT's A is one of the proposals. */
  lemma TeaProposed()
    ensures Pos(0, 2, V) in Proposals("TEA", Seed(5, "CAT").placed)
  {
    var placed := Seed(5, "CAT").placed;
    assert placed == [Placement("CAT", 2, 1, H)];
    assert Crossing("TEA", placed, 0, 2, 1, Pos(0, 2, V));
    ProposalsExact("TEA", placed, Pos(0, 2, V));
  }

  /** The proposal fits the grid, yet `_can_place` rejects it: the blank
      cell above the crossing, which is to take E, has the crossing A as its
      side neighbour, and only the crossing cell itself is exempt. */
  lemma CrossingRejected()
    ensures var s := Seed(5, "CAT");
            && IsBoard(s.grid, 5)
            && Pos(0, 2, V) in Proposals("TEA", s.placed)
            && Fits(s.grid, 5, "TEA", 0, 2, V)
            && !Admits(s.grid, 5, "TEA", 0, 2, V)
  {
    SeededCat();
    TeaProposed();
    var b := Seed(5, "CAT").grid;
    assert AllCompatible(b, 5, "TEA", 0, 2, V) by {
      forall i | 0 <= i < 3
        ensures Compatible(b[RowOf(0, V, i)][ColOf(2, V, i)], "TEA"[i])
      {
      }
    }
    assert !CellAdmits(b, 5, "TEA", 0, 2, V, 1) by {
      assert !NeighbourOk(b, 5, 1 + Sides[1].0, 2 + Sides[1].1, 'E');
    }
  }
}

=== FILE: grids.dfy ===
/** Vocabulary shared by the three crossword placement engines: the character
    grid, directions and placements, the cell that a word's i-th letter covers,
    writing a word onto the grid, the legality of a placement, the overlap
    count, the random-draw ranges and the stable longest-first ordering. */
module Grids {

  datatype Option<T> = None | Some(value: T)

  /** The character that marks an empty cell. */
  const Blank: char := ' '

  /** A grid is a list of rows of one-character cells. */
  type Board = seq<seq<char>>

  /** 'H' advances the column, 'V' advances the row. */
  datatype Dir = H | V

  /** A recorded placement: the tuple (word, row, col, direction). */
  datatype Placement = Placement(word: string, row: int, col: int, dir: Dir)

  /** An origin and a direction: a proposed position or one random draw. */
  datatype Pos = Pos(row: int, col: int, dir: Dir)

  /** Row of the cell covered by letter i of a word whose origin row is `row`. */
  function RowOf(row: int, dir: Dir, i: int): int
  {
    if dir == V then row + i else row
  }

  /** Column of the cell covered by letter i of a word whose origin column is `col`. */
  function ColOf(col: int, dir: Dir, i: int): int
  {
    if dir == H then col + i else col
  }

  predicate InBounds(size: int, r: int, c: int)
  {
    0 <= r < size && 0 <= c < size
  }

  /** A well-formed grid is size × size. */
  predicate IsBoard(b: Board, size: nat)
  {
    |b| == size && forall r :: 0 <= r < size ==> |b[r]| == size
  }

  /** The all-blank size × size grid built by the constructors. */
  function BlankBoard(size: nat): (b: Board)
    ensures IsBoard(b, size)
    ensures forall r, c :: 0 <= r < size && 0 <= c < size ==> b[r][c] == Blank
  {
    seq(size, _ => seq(size, _ => Blank))
  }

  /** Every cell covered by a word of length `len` lies on the grid. */
  predicate AllInBounds(size: int, len: int, row: int, col: int, dir: Dir)
  {
    forall i :: 0 <= i < len ==> InBounds(size, RowOf(row, dir, i), ColOf(col, dir, i))
  }

  /** A cell accepts a letter when it is blank or already holds that letter. */
  predicate Compatible(cell: char, ch: char)
  {
    cell == Blank || cell == ch
  }

  /** Every covered cell accepts the word's letter at that offset. */
  predicate AllCompatible(b: Board, size: nat, word: string, row: int, col: int, dir: Dir)
    requires IsBoard(b, size) && AllInBounds(size, |word|, row, col, dir)
  {
    forall i :: 0 <= i < |word| ==> Compatible(b[RowOf(row, dir, i)][ColOf(col, dir, i)], word[i])
  }

  /** The bounds-and-conflict legality rule: the word lies on the grid and
      overwrites no letter with a different one. */
  predicate Fits(b: Board, size: nat, word: string, row: int, col: int, dir: Dir)
    requires IsBoard(b, size)
  {
    AllInBounds(size, |word|, row, col, dir) && AllCompatible(b, size, word, row, col, dir)
  }

  /** Does a word of length `len` at (row, col, dir) cover cell (r, c)? */
  predicate Covers(len: int, row: int, col: int, dir: Dir, r: int, c: int)
  {
    if dir == H then r == row && col <= c < col + len else c == col && row <= r < row + len
  }

  /** The offset within the word of a covered cell (r, c). */
  function Offset(row: int, col: int, dir: Dir, r: int, c: int): int
  {
    if dir == H then c - col else r - row
  }

  /** `grid[r][c] = ch` when (r, c) is a cell of the grid. */
  function Put(b: Board, r: int, c: int, ch: char): (w: Board)
    ensures |w| == |b| && forall k :: 0 <= k < |b| ==> |w[k]| == |b[k]|
  {
    if 0 <= r < |b| && 0 <= c < |b[r]| then b[r := b[r][c := ch]] else b
  }

  /** The grid after writing the letters of `word` one by one at (row, col,
      dir), as the loop of every `_place_word` does. */
  function Written(b: Board, word: string, row: int, col: int, dir: Dir): (w: Board)
    decreases |word|
    ensures |w| == |b| && forall r :: 0 <= r < |b| ==> |w[r]| == |b[r]|
  {
    if word == [] then b
    else
      var n := |word| - 1;
      Put(Written(b, word[..n], row, col, dir), RowOf(row, dir, n), ColOf(col, dir, n), word[n])
  }

  /** Two letters of one word never share a cell. */
  lemma CellsDistinct(row: int, col: int, dir: Dir, i: int, j: int)
    requires i != j
    ensures (RowOf(row, dir, i), ColOf(col, dir, i)) != (RowOf(row, dir, j), ColOf(col, dir, j))
  {
  }

  /** What writing does: the shape is kept, each covered cell on the grid
      holds its letter, every other cell is unchanged. */
  lemma {:induction false} WrittenCells(b: Board, word: string, row: int, col: int, dir: Dir)
    ensures var w := Written(b, word, row, col, dir);
            && (forall i :: 0 <= i < |word| && 0 <= RowOf(row, dir, i) < |b| && 0 <= ColOf(col, dir, i) < |b[RowOf(row, dir, i)]|
                  ==> w[RowOf(row, dir, i)][ColOf(col, dir, i)] == word[i])
            && (forall r, c :: 0 <= r < |b| && 0 <= c < |b[r]| && !Covers(|word|, row, col, dir, r, c) ==> w[r][c] == b[r][c])
    decreases |word|
  {
    if word != [] {
      var n := |word| - 1;
      var prev := Written(b, word[..n], row, col, dir);
      WrittenCells(b, word[..n], row, col, dir);
      var w := Written(b, word, row, col, dir);
      assert w == Put(prev, RowOf(row, dir, n), ColOf(col, dir, n), word[n]);
      forall i | 0 <= i < |word| && 0 <= RowOf(row, dir, i) < |b| && 0 <= ColOf(col, dir, i) < |b[RowOf(row, dir, i)]|
        ensures w[RowOf(row, dir, i)][ColOf(col, dir, i)] == word[i]
      {
        if i < n {
          CellsDistinct(row, col, dir, i, n);
          assert word[..n][i] == word[i];
        }
      }
      forall r, c | 0 <= r < |b| && 0 <= c < |b[r]| && !Covers(|word|, row, col, dir, r, c)
        ensures w[r][c] == b[r][c]
      {
        assert !Covers(n, row, col, dir, r, c);
        assert (r, c) != (RowOf(row, dir, n), ColOf(col, dir, n));
      }
    }
  }

  /** Writing one more letter of a prefix: the loop step of `_place_word`. */
  lemma WrittenPrefixStep(b: Board, word: string, row: int, col: int, dir: Dir, i: nat)
    requires i < |word|
    requires 0 <= RowOf(row, dir, i) < |b| && 0 <= ColOf(col, dir, i) < |b[RowOf(row, dir, i)]|
    ensures var w := Written(b, word[..i], row, col, dir);
            var r, c := RowOf(row, dir, i), ColOf(col, dir, i);
            Written(b, word[..i + 1], row, col, dir) == w[r := w[r][c := word[i]]]
  {
    assert word[..i + 1][..i] == word[..i];
  }

  /** No letter already on `b` is replaced by a different letter in `b2`. */
  predicate Keeps(b: Board, b2: Board)
  {
    |b2| == |b| &&
    forall r :: 0 <= r < |b| ==>
      |b2[r]| == |b[r]| && forall c :: 0 <= c < |b[r]| && b[r][c] != Blank ==> b2[r][c] == b[r][c]
  }

  /** A recorded placement lies on the grid and each of its non-blank letters
      is the letter in the cell it covers. */
  predicate Spelled(b: Board, size: nat, p: Placement)
    requires IsBoard(b, size)
  {
    AllInBounds(size, |p.word|, p.row, p.col, p.dir) &&
    forall i :: 0 <= i < |p.word| && p.word[i] != Blank ==>
      b[RowOf(p.row, p.dir, i)][ColOf(p.col, p.dir, i)] == p.word[i]
  }

  /** A letter written where it fits keeps every letter already present and
      spells the new word; every placement spelled before is spelled after. */
  lemma {:induction false} WriteFitting(b: Board, size: nat, word: string, row: int, col: int, dir: Dir)
    requires IsBoard(b, size) && Fits(b, size, word, row, col, dir)
    ensures IsBoard(Written(b, word, row, col, dir), size)
    ensures Keeps(b, Written(b, word, row, col, dir))
    ensures Spelled(Written(b, word, row, col, dir), size, Placement(word, row, col, dir))
    ensures forall p :: Spelled(b, size, p) ==> Spelled(Written(b, word, row, col, dir), size, p)
  {
    var w := Written(b, word, row, col, dir);
    WrittenCells(b, word, row, col, dir);
    forall r, c | 0 <= r < size && 0 <= c < size && b[r][c] != Blank
      ensures w[r][c] == b[r][c]
    {
      if Covers(|word|, row, col, dir, r, c) {
        var i := Offset(row, col, dir, r, c);
        assert RowOf(row, dir, i) == r && ColOf(col, dir, i) == c;
        assert Compatible(b[r][c], word[i]);
      }
    }
    forall p | Spelled(b, size, p)
      ensures Spelled(w, size, p)
    {
      forall i | 0 <= i < |p.word| && p.word[i] != Blank
        ensures w[RowOf(p.row, p.dir, i)][ColOf(p.col, p.dir, i)] == p.word[i]
      {
        assert InBounds(size, RowOf(p.row, p.dir, i), ColOf(p.col, p.dir, i));
      }
    }
  }

  /** A placement whose covered cells are all blank-or-equal can be written:
      on the all-blank grid every in-bounds placement fits. */
  lemma BlankFits(size: nat, word: string, row: int, col: int, dir: Dir)
    requires AllInBounds(size, |word|, row, col, dir)
    ensures Fits(BlankBoard(size), size, word, row, col, dir)
  {
  }

  /** The bounds rule in closed form: the first and last covered cells decide it. */
  lemma {:induction false} AllInBoundsSpan(size: int, len: int, row: int, col: int, dir: Dir)
    requires len > 0
    ensures AllInBounds(size, len, row, col, dir) <==>
            0 <= row && 0 <= col &&
            (dir == H ==> row < size && col + len <= size) &&
            (dir == V ==> col < size && row + len <= size)
  {
    if AllInBounds(size, len, row, col, dir) {
      assert InBounds(size, RowOf(row, dir, 0), ColOf(col, dir, 0));
      assert InBounds(size, RowOf(row, dir, len - 1), ColOf(col, dir, len - 1));
    }
  }

  /** The seeding rule: a word no longer than the grid, written horizontally
      at row size/2 and column (size - len)/2, lies on the grid. */
  lemma {:induction false} CentredInBounds(size: nat, len: nat)
    requires len <= size
    ensures AllInBounds(size, len, size / 2, (size - len) / 2, H)
  {
    if len > 0 {
      AllInBoundsSpan(size, len, size / 2, (size - len) / 2, H);
    }
  }

  /** The range `random.randint` draws an origin from, per direction:
      along the word's axis [0, size - len], across it [0, size - 1]. */
  predicate InSampledRange(a: Pos, len: int, size: int)
  {
    0 <= a.row <= size - (if a.dir == V then len else 1) &&
    0 <= a.col <= size - (if a.dir == H then len else 1)
  }

  /** A sampled origin keeps every covered cell on the grid, and a non-empty
      word can only be sampled when it is no longer than the grid. */
  lemma {:induction false} SampledInBounds(a: Pos, len: nat, size: int)
    requires InSampledRange(a, len, size)
    ensures AllInBounds(size, len, a.row, a.col, a.dir)
    ensures len <= size
  {
    if len > 0 {
      AllInBoundsSpan(size, len, a.row, a.col, a.dir);
    }
  }

  /** Draw n is the first of `tries` at which the word fits. */
  ghost predicate FirstFit(b: Board, size: nat, word: string, tries: seq<Pos>, n: int)
    requires IsBoard(b, size)
  {
    0 <= n < |tries| &&
    Fits(b, size, word, tries[n].row, tries[n].col, tries[n].dir) &&
    forall j :: 0 <= j < n ==> !Fits(b, size, word, tries[j].row, tries[j].col, tries[j].dir)
  }

  /** The offsets from i on whose covered cell is on the grid and already
      holds the word's letter: what `_score_position` counts. */
  function MatchingFrom(b: Board, size: nat, word: string, row: int, col: int, dir: Dir, i: nat): set<int>
    requires IsBoard(b, size)
  {
    set k | i <= k < |word| && InBounds(size, RowOf(row, dir, k), ColOf(col, dir, k))
                            && b[RowOf(row, dir, k)][ColOf(col, dir, k)] == word[k]
  }

  /** Peeling offset i off the matching set. */
  lemma MatchingSplit(b: Board, size: nat, word: string, row: int, col: int, dir: Dir, i: nat)
    requires IsBoard(b, size) && i < |word|
    ensures var r, c := RowOf(row, dir, i), ColOf(col, dir, i);
            |MatchingFrom(b, size, word, row, col, dir, i)| ==
            |MatchingFrom(b, size, word, row, col, dir, i + 1)| + (if InBounds(size, r, c) && b[r][c] == word[i] then 1 else 0)
  {
    var r, c := RowOf(row, dir, i), ColOf(col, dir, i);
    var all := MatchingFrom(b, size, word, row, col, dir, i);
    var rest := MatchingFrom(b, size, word, row, col, dir, i + 1);
    if InBounds(size, r, c) && b[r][c] == word[i] {
      assert all == rest + {i} by {
        assert i in all;
      }
      assert |all| == |rest| + 1 by {
        assert i !in rest;
      }
    } else {
      assert all == rest by {
        assert i !in all;
      }
    }
  }

  /** Python's `str.upper()` on one character (ASCII letters). */
  function UpperChar(ch: char): char
  {
    if 'a' <= ch <= 'z' then (ch as int - 32) as char else ch
  }

  /** `w.upper()`: same length, every lower-case letter replaced by its
      capital (32 code points lower), and every other character kept. */
  function Upper(w: string): (u: string)
    ensures |u| == |w|
    ensures forall i :: 0 <= i < |u| ==> !('a' <= u[i] <= 'z')
    ensures forall i :: 0 <= i < |w| && !('a' <= w[i] <= 'z') ==> u[i] == w[i]
    ensures forall i :: 0 <= i < |w| && 'a' <= w[i] <= 'z' ==> u[i] as int == w[i] as int - 32
  {
    seq(|w|, i requires 0 <= i < |w| => UpperChar(w[i]))
  }

  /** `[w.upper() for w in words]`. */
  function UpperAll(ws: seq<string>): (us: seq<string>)
    ensures |us| == |ws| && forall k :: 0 <= k < |ws| ==> us[k] == Upper(ws[k])
  {
    seq(|ws|, k requires 0 <= k < |ws| => Upper(ws[k]))
  }

  // ---------------------------------------------------------------------------
  // Python's stable `list.sort(key=..., reverse=True)`, modelled as insertion
  // sort: an element goes in front of the first element whose key is not
  // larger, so equal keys keep their input order.
  // ---------------------------------------------------------------------------

  function InsertByKey<T>(x: T, s: seq<T>, key: T -> int): (r: seq<T>)
    ensures |r| == |s| + 1
  {
    if s == [] || key(s[0]) <= key(x) then [x] + s
    else [s[0]] + InsertByKey(x, s[1..], key)
  }

  function SortByKeyDesc<T>(xs: seq<T>, key: T -> int): (r: seq<T>)
    ensures |r| == |xs|
  {
    if xs == [] then []
    else InsertByKey(xs[0], SortByKeyDesc(xs[1..], key), key)
  }

  lemma {:induction false} InsertPerm<T>(x: T, s: seq<T>, key: T -> int)
    ensures multiset(InsertByKey(x, s, key)) == multiset(s) + multiset{x}
  {
    if !(s == [] || key(s[0]) <= key(x)) {
      InsertPerm(x, s[1..], key);
      assert s == [s[0]] + s[1..];
    }
  }

  /** The ordering is a permutation of its input. */
  lemma {:induction false} SortByKeyDescPerm<T>(xs: seq<T>, key: T -> int)
    ensures multiset(SortByKeyDesc(xs, key)) == multiset(xs)
  {
    if xs != [] {
      SortByKeyDescPerm(xs[1..], key);
      InsertPerm(xs[0], SortByKeyDesc(xs[1..], key), key);
      assert xs == [xs[0]] + xs[1..];
    }
  }

  function Length(w: string): int
  {
    |w|
  }

  /** The words as the engines order them: upper-cased, longest first. */
  function SortedWords(ws: seq<string>): (sorted: seq<string>)
    ensures |sorted| == |ws|
  {
    SortByKeyDesc(UpperAll(ws), Length)
  }

  ghost predicate SortedDesc<T>(s: seq<T>, key: T -> int)
  {
    forall i, j :: 0 <= i < j < |s| ==> key(s[i]) >= key(s[j])
  }

  lemma {:induction false} InsertSorted<T>(x: T, s: seq<T>, key: T -> int)
    requires SortedDesc(s, key)
    ensures SortedDesc(InsertByKey(x, s, key), key)
  {
    if s == [] || key(s[0]) <= key(x) {
    } else {
      InsertSorted(x, s[1..], key);
      var t := InsertByKey(x, s[1..], key);
      InsertPerm(x, s[1..], key);
      forall j | 0 <= j < |t|
        ensures key(s[0]) >= key(t[j])
      {
        assert t[j] in multiset(t);
        if t[j] != x {
          assert t[j] in multiset(s[1..]);
          var m :| 0 <= m < |s[1..]| && s[1..][m] == t[j];
          assert s[m + 1] == t[j];
        }
      }
    }
  }

  /** The ordering is non-increasing in the key. */
  lemma {:induction false} SortByKeyDescSorted<T>(xs: seq<T>, key: T -> int)
    ensures SortedDesc(SortByKeyDesc(xs, key), key)
  {
    if xs != [] {
      SortByKeyDescSorted(xs[1..], key);
      InsertSorted(xs[0], SortByKeyDesc(xs[1..], key), key);
    }
  }

  /** The elements whose key is v, in their order. */
  function WithKey<T>(s: seq<T>, key: T -> int, v: int): seq<T>
  {
    if s == [] then [] else (if key(s[0]) == v then [s[0]] else []) + WithKey(s[1..], key, v)
  }

  lemma {:induction false} InsertStable<T>(x: T, s: seq<T>, key: T -> int, v: int)
    ensures WithKey(InsertByKey(x, s, key), key, v) == WithKey([x] + s, key, v)
  {
    assert ([x] + s)[1..] == s;
    if s == [] || key(s[0]) <= key(x) {
    } else {
      var t := InsertByKey(x, s[1..], key);
      assert ([s[0]] + t)[1..] == t;
      InsertStable(x, s[1..], key, v);
      assert ([x] + s[1..])[1..] == s[1..];
    }
  }

  /** Stability: for every key value, the elements carrying it appear in the
      result exactly in their input order. */
  lemma {:induction false} SortByKeyDescStable<T>(xs: seq<T>, key: T -> int, v: int)
    ensures WithKey(SortByKeyDesc(xs, key), key, v) == WithKey(xs, key, v)
  {
    if xs != [] {
      var t := SortByKeyDesc(xs[1..], key);
      InsertStable(xs[0], t, key, v);
      SortByKeyDescStable(xs[1..], key, v);
      assert ([xs[0]] + t)[1..] == t;
    }
  }

  /** Index n holds the first element of maximal key. */
  ghost predicate IsFirstMax<T>(xs: seq<T>, key: T -> int, n: int)
  {
    0 <= n < |xs| &&
    (forall m :: 0 <= m < |xs| ==> key(xs[m]) <= key(xs[n])) &&
    (forall m :: 0 <= m < n ==> key(xs[m]) < key(xs[n]))
  }

  /** The head of the stable descending order is the first element of
      maximal key: what `sort(reverse=True)` followed by `[0]` picks. */
  lemma {:induction false} SortByKeyDescHead<T>(xs: seq<T>, key: T -> int)
    requires xs != []
    ensures exists n :: IsFirstMax(xs, key, n) && SortByKeyDesc(xs, key)[0] == xs[n]
  {
    var t := SortByKeyDesc(xs[1..], key);
    if t == [] || key(t[0]) <= key(xs[0]) {
      if t != [] {
        SortByKeyDescHead(xs[1..], key);
        var n' :| IsFirstMax(xs[1..], key, n') && t[0] == xs[1..][n'];
        assert forall m :: 1 <= m < |xs| ==> key(xs[m]) == key(xs[1..][m - 1]);
      }
      assert IsFirstMax(xs, key, 0);
    } else {
      SortByKeyDescHead(xs[1..], key);
      var n' :| IsFirstMax(xs[1..], key, n') && t[0] == xs[1..][n'];
      assert forall m :: 1 <= m < |xs| ==> key(xs[m]) == key(xs[1..][m - 1]);
      assert IsFirstMax(xs, key, n' + 1);
    }
  }

  // ---------------------------------------------------------------------------
  // Every engine's word loop records at most one entry per word, for that
  // word, in the loop's order: the recorded words are a subsequence of the
  // words processed.
  // ---------------------------------------------------------------------------

  /** The words of a list of placements, in order. */
  function WordsOf(ps: seq<Placement>): (ws: seq<string>)
    ensures |ws| == |ps| && forall i :: 0 <= i < |ps| ==> ws[i] == ps[i].word
  {
    seq(|ps|, i requires 0 <= i < |ps| => ps[i].word)
  }

  /** `xs` is `ys` with some elements left out and the rest kept in order. */
  predicate Subsequence<T(==)>(xs: seq<T>, ys: seq<T>)
    decreases |ys|
  {
    if xs == [] then true
    else if ys == [] then false
    else (xs[0] == ys[0] && Subsequence(xs[1..], ys[1..])) || Subsequence(xs, ys[1..])
  }

  /** A subsequence is no longer than the sequence, and each of its elements
      occurs in the sequence. */
  lemma {:induction false} SubsequenceBounds<T>(xs: seq<T>, ys: seq<T>)
    requires Subsequence(xs, ys)
    ensures |xs| <= |ys|
    ensures forall x :: x in xs ==> x in ys
    decreases |ys|
  {
    if xs != [] {
      if xs[0] == ys[0] && Subsequence(xs[1..], ys[1..]) {
        SubsequenceBounds(xs[1..], ys[1..]);
        forall x | x in xs
          ensures x in ys
        {
          if x != xs[0] {
            assert x in xs[1..];
          }
        }
      } else {
        SubsequenceBounds(xs, ys[1..]);
      }
    }
  }

  /** Placements whose words are a subsequence of `ws` are no more than `ws`,
      and each records a word of `ws`. */
  lemma PlacedWithin(ps: seq<Placement>, ws: seq<string>)
    requires Subsequence(WordsOf(ps), ws)
    ensures |ps| <= |ws|
    ensures forall p :: p in ps ==> p.word in ws
  {
    SubsequenceBounds(WordsOf(ps), ws);
    forall p | p in ps
      ensures p.word in ws
    {
      var j :| 0 <= j < |ps| && ps[j] == p;
      assert WordsOf(ps)[j] == p.word;
    }
  }

  /** One word's step: `t` is `s` with at most one placement appended, of
      word `w`. */
  predicate RecordsAtMostOne(s: seq<Placement>, t: seq<Placement>, w: string)
  {
    s <= t && |t| <= |s| + 1 && forall j :: |s| <= j < |t| ==> t[j].word == w
  }

  /** One turn of a word loop: a placement list grown from `s` to `t` by at
      most one entry, of `words[k]`, and then to `u` by entries whose words
      are a subsequence of `words[k + 1..]`, has grown from `s` by a
      subsequence of `words[k..]`. */
  lemma WordsOfStep(s: seq<Placement>, t: seq<Placement>, u: seq<Placement>, words: seq<string>, k: nat)
    requires k < |words| && RecordsAtMostOne(s, t, words[k]) && t <= u
    requires Subsequence(WordsOf(u[|t|..]), words[k + 1..])
    ensures Subsequence(WordsOf(u[|s|..]), words[k..])
  {
    var rest := WordsOf(u[|t|..]);
    assert words[k..][0] == words[k] && words[k..][1..] == words[k + 1..];
    if |t| == |s| {
      assert u[|s|..] == u[|t|..];
    } else {
      assert u[|s|] == t[|s|];
      assert WordsOf(u[|s|..]) == [words[k]] + rest;
      assert (([words[k]] + rest)[1..]) == rest;
    }
  }

  // ---------------------------------------------------------------------------
  // `grid_to_display`: blank cells become empty strings.
  // ---------------------------------------------------------------------------

  /** `[[cell if cell != ' ' else '' for cell in row] for row in grid]`. */
  function GridToDisplay(b: Board): (d: seq<seq<string>>)
    ensures |d| == |b|
    ensures forall r :: 0 <= r < |b| ==> |d[r]| == |b[r]|
    ensures forall r, c :: 0 <= r < |b| && 0 <= c < |b[r]| ==>
              (d[r][c] == "" <==> b[r][c] == Blank) && (b[r][c] != Blank ==> d[r][c] == [b[r][c]])
  {
    seq(|b|, r requires 0 <= r < |b| =>
      seq(|b[r]|, c requires 0 <= c < |b[r]| => if b[r][c] != Blank then [b[r][c]] else ""))
  }

  /** Reading a display grid back: an empty string is a blank cell. */
  function FromDisplay(d: seq<seq<string>>): Board
  {
    seq(|d|, r requires 0 <= r < |d| =>
      seq(|d[r]|, c requires 0 <= c < |d[r]| => if d[r][c] == "" then Blank else d[r][c][0]))
  }

  /** The display loses nothing: the grid can be read back from it. */
  lemma DisplayRoundTrip(b: Board)
    ensures FromDisplay(GridToDisplay(b)) == b
  {
    var d := GridToDisplay(b);
    var b2 := FromDisplay(d);
    forall r | 0 <= r < |b|
      ensures b2[r] == b[r]
    {
      assert |b2[r]| == |b[r]|;
    }
  }
}

=== FILE: solver.dfy ===
/** The heuristic solver `CrosswordSolver` (backend/crossword_generator_new.py).
    Words are upper-cased and placed longest first; the first is seeded
    horizontally in the centre; every later word is tried against the
    letter-to-slot index, the legal candidates are scored by overlap and the
    first one of highest score is committed; a word with no candidate gets up
    to 50 random draws. */
module Solver {
  import opened Grids

  /** `for _ in range(50)` in the random fallback. */
  const MaxTries: nat := 50

  // ---------------------------------------------------------------------------
  // `_can_place` and `_score_position`
  // ---------------------------------------------------------------------------

  /** The loop of `_can_place` from offset i on: stop with false at the first
      covered cell that is off the grid or holds a different letter. */
  function CanPlaceFrom(b: Board, size: nat, word: string, row: int, col: int, dir: Dir, i: nat): (ok: bool)
    requires IsBoard(b, size)
    decreases |word| - i
    ensures ok <==> forall k :: i <= k < |word| ==>
                      InBounds(size, RowOf(row, dir, k), ColOf(col, dir, k)) &&
                      Compatible(b[RowOf(row, dir, k)][ColOf(col, dir, k)], word[k])
  {
    if i >= |word| then true
    else
      var r, c := RowOf(row, dir, i), ColOf(col, dir, i);
      if !InBounds(size, r, c) then false
      else if !Compatible(b[r][c], word[i]) then false
      else CanPlaceFrom(b, size, word, row, col, dir, i + 1)
  }

  /** `_can_place`: true exactly when every covered cell is on the grid and is
      blank or already holds the word's letter. */
  function CanPlace(b: Board, size: nat, word: string, row: int, col: int, dir: Dir): (ok: bool)
    requires IsBoard(b, size)
    ensures ok <==> Fits(b, size, word, row, col, dir)
  {
    CanPlaceFrom(b, size, word, row, col, dir, 0)
  }

  function ScoreFrom(b: Board, size: nat, word: string, row: int, col: int, dir: Dir, i: nat): (n: nat)
    requires IsBoard(b, size) && AllInBounds(size, |word|, row, col, dir) && i <= |word|
    decreases |word| - i
    ensures n == |MatchingFrom(b, size, word, row, col, dir, i)|
    ensures n <= |word| - i
  {
    if i == |word| then
      assert MatchingFrom(b, size, word, row, col, dir, i) == {};
      0
    else
      MatchingSplit(b, size, word, row, col, dir, i);
      var r, c := RowOf(row, dir, i), ColOf(col, dir, i);
      (if b[r][c] == word[i] then 1 else 0) + ScoreFrom(b, size, word, row, col, dir, i + 1)
  }

  /** `_score_position`: the number of offsets whose covered cell already
      holds the word's letter; it needs every covered cell on the grid. */
  function Score(b: Board, size: nat, word: string, row: int, col: int, dir: Dir): (n: nat)
    requires IsBoard(b, size) && AllInBounds(size, |word|, row, col, dir)
    ensures n == |MatchingFrom(b, size, word, row, col, dir, 0)|
    ensures n <= |word|
  {
    ScoreFrom(b, size, word, row, col, dir, 0)
  }

  // ---------------------------------------------------------------------------
  // `letter_positions`: letter -> list of (r, c), only ever appended to
  // ---------------------------------------------------------------------------

  type Slot = (int, int)
  type SlotIndex = map<char, seq<Slot>>

  /** `letter_positions.get(ch, [])`. */
  function SlotsFor(m: SlotIndex, ch: char): seq<Slot>
  {
    if ch in m then m[ch] else []
  }

  /** `letter_positions.setdefault(ch, []).append(s)`. */
  function AddSlot(m: SlotIndex, ch: char, s: Slot): SlotIndex
  {
    m[ch := SlotsFor(m, ch) + [s]]
  }

  /** The index after `_place_word` has appended the cell of every letter of
      `word`, in offset order. */
  function Indexed(m: SlotIndex, word: string, row: int, col: int, dir: Dir): SlotIndex
    decreases |word|
  {
    if word == [] then m
    else
      var n := |word| - 1;
      AddSlot(Indexed(m, word[..n], row, col, dir), word[n], (RowOf(row, dir, n), ColOf(col, dir, n)))
  }

  /** Indexing a word keeps every old list as a prefix, appends one entry per
      occurrence of the letter, and adds exactly the word's letters as keys. */
  lemma {:induction false} IndexedGrows(m: SlotIndex, word: string, row: int, col: int, dir: Dir, ch: char)
    ensures var m2 := Indexed(m, word, row, col, dir);
            && SlotsFor(m, ch) <= SlotsFor(m2, ch)
            && |SlotsFor(m2, ch)| == |SlotsFor(m, ch)| + multiset(word)[ch]
            && (ch in m2 <==> ch in m || ch in word)
  {
    if word != [] {
      var n := |word| - 1;
      assert word == word[..n] + [word[n]];
      IndexedGrows(m, word[..n], row, col, dir, ch);
    }
  }

  /** Each entry indexing appends under a letter is the cell of an occurrence
      of that letter in the word. */
  lemma {:induction false} IndexedEntries(m: SlotIndex, word: string, row: int, col: int, dir: Dir, ch: char, t: int)
    requires |SlotsFor(m, ch)| <= t < |SlotsFor(Indexed(m, word, row, col, dir), ch)|
    ensures exists k :: 0 <= k < |word| && word[k] == ch &&
              SlotsFor(Indexed(m, word, row, col, dir), ch)[t] == (RowOf(row, dir, k), ColOf(col, dir, k))
  {
    var n := |word| - 1;
    var prev := Indexed(m, word[..n], row, col, dir);
    if t < |SlotsFor(prev, ch)| {
      IndexedEntries(m, word[..n], row, col, dir, ch, t);
      var k :| 0 <= k < |word[..n]| && word[..n][k] == ch && SlotsFor(prev, ch)[t] == (RowOf(row, dir, k), ColOf(col, dir, k));
      assert word[k] == ch;
    }
  }

  /** Conversely, the cell of every offset of the word is among the entries
      indexing appends under that offset's letter. */
  lemma {:induction false} IndexedHasEvery(m: SlotIndex, word: string, row: int, col: int, dir: Dir, k: int)
    requires 0 <= k < |word|
    ensures exists t :: |SlotsFor(m, word[k])| <= t < |SlotsFor(Indexed(m, word, row, col, dir), word[k])| &&
              SlotsFor(Indexed(m, word, row, col, dir), word[k])[t] == (RowOf(row, dir, k), ColOf(col, dir, k))
  {
    var n := |word| - 1;
    var prev := Indexed(m, word[..n], row, col, dir);
    var pre := SlotsFor(prev, word[k]);
    var full := SlotsFor(Indexed(m, word, row, col, dir), word[k]);
    var s := (RowOf(row, dir, k), ColOf(col, dir, k));
    IndexedGrows(m, word[..n], row, col, dir, word[k]);
    assert pre <= full;
    if k == n {
      assert full == pre + [s];
      assert full[|pre|] == s;
    } else {
      IndexedHasEvery(m, word[..n], row, col, dir, k);
      assert word[..n][k] == word[k];
      var t :| |SlotsFor(m, word[k])| <= t < |pre| && pre[t] == s;
      assert full[t] == s;
    }
  }

  /** Every indexed slot is on the grid, and a slot listed under a letter
      holds that letter (the blank is not a letter, and a later word may
      write over a blank). */
  ghost predicate SlotsAgree(b: Board, size: nat, m: SlotIndex)
    requires IsBoard(b, size)
  {
    forall ch, t :: ch in m && 0 <= t < |m[ch]| ==>
      InBounds(size, m[ch][t].0, m[ch][t].1) && (ch != Blank ==> b[m[ch][t].0][m[ch][t].1] == ch)
  }

  /** Letters that stay put keep the index in agreement. */
  lemma KeepsAgree(b: Board, b2: Board, size: nat, m: SlotIndex)
    requires IsBoard(b, size) && IsBoard(b2, size) && Keeps(b, b2) && SlotsAgree(b, size, m)
    ensures SlotsAgree(b2, size, m)
  {
    forall ch: char, t: int | ch in m && 0 <= t < |m[ch]| && ch != Blank
      ensures b2[m[ch][t].0][m[ch][t].1] == ch
    {
      assert b[m[ch][t].0][m[ch][t].1] == ch;
    }
  }

  /** Appending a slot that holds its letter keeps the index in agreement. */
  lemma AddSlotAgrees(b: Board, size: nat, m: SlotIndex, ch: char, s: Slot)
    requires IsBoard(b, size) && SlotsAgree(b, size, m)
    requires InBounds(size, s.0, s.1) && (ch != Blank ==> b[s.0][s.1] == ch)
    ensures SlotsAgree(b, size, AddSlot(m, ch, s))
  {
    var m2: SlotIndex := AddSlot(m, ch, s);
    forall ch2: char, t: int | ch2 in m2 && 0 <= t < |m2[ch2]|
      ensures InBounds(size, m2[ch2][t].0, m2[ch2][t].1) && (ch2 != Blank ==> b[m2[ch2][t].0][m2[ch2][t].1] == ch2)
    {
      if ch2 == ch && t == |SlotsFor(m, ch)| {
        assert m2[ch2][t] == s;
      } else {
        assert ch2 in m && m2[ch2][t] == m[ch2][t];
      }
    }
  }

  /** Indexing the first n letters of a word spelled on the grid keeps the
      index in agreement with the grid. */
  lemma {:induction false} IndexedAgrees(w: Board, size: nat, m: SlotIndex, word: string, row: int, col: int, dir: Dir, n: nat)
    requires IsBoard(w, size) && SlotsAgree(w, size, m) && n <= |word|
    requires Spelled(w, size, Placement(word, row, col, dir))
    ensures SlotsAgree(w, size, Indexed(m, word[..n], row, col, dir))
  {
    if n == 0 {
      assert word[..0] == [];
    } else {
      IndexedAgrees(w, size, m, word, row, col, dir, n - 1);
      assert word[..n][..n - 1] == word[..n - 1];
      assert word[..n][n - 1] == word[n - 1];
      var s := (RowOf(row, dir, n - 1), ColOf(col, dir, n - 1));
      assert InBounds(size, s.0, s.1);
      AddSlotAgrees(w, size, Indexed(m, word[..n - 1], row, col, dir), word[n - 1], s);
    }
  }

  // ---------------------------------------------------------------------------
  // The solver's state and `_place_word`
  // ---------------------------------------------------------------------------

  /** The fields `_place_word` and `solve` update: grid, placed, letter_positions. */
  datatype SolverState = SolverState(grid: Board, placed: seq<Placement>, slots: SlotIndex)

  /** The state the constructor builds. */
  function Initial(size: nat): SolverState
  {
    SolverState(BlankBoard(size), [], map[])
  }

  /** The invariant `solve` keeps: a size × size grid, every recorded
      placement on it and spelled, every indexed slot holding its letter. */
  ghost predicate Invariant(s: SolverState, size: nat)
  {
    IsBoard(s.grid, size) &&
    (forall p :: p in s.placed ==> Spelled(s.grid, size, p)) &&
    SlotsAgree(s.grid, size, s.slots)
  }

  /** `_place_word`: write the letters, index their cells, record the tuple. */
  function Commit(s: SolverState, word: string, row: int, col: int, dir: Dir): SolverState
  {
    SolverState(Written(s.grid, word, row, col, dir),
                s.placed + [Placement(word, row, col, dir)],
                Indexed(s.slots, word, row, col, dir))
  }

  /** The state after `_place_word` has handled the first i letters. */
  function Partial(s: SolverState, word: string, row: int, col: int, dir: Dir, i: nat): SolverState
    requires i <= |word|
  {
    SolverState(Written(s.grid, word[..i], row, col, dir), s.placed, Indexed(s.slots, word[..i], row, col, dir))
  }

  lemma PartialStart(s: SolverState, word: string, row: int, col: int, dir: Dir)
    ensures Partial(s, word, row, col, dir, 0) == s
  {
    assert word[..0] == [];
  }

  lemma PartialStep(s: SolverState, word: string, row: int, col: int, dir: Dir, i: nat)
    requires i < |word|
    requires 0 <= RowOf(row, dir, i) < |s.grid| && 0 <= ColOf(col, dir, i) < |s.grid[RowOf(row, dir, i)]|
    ensures var t := Partial(s, word, row, col, dir, i);
            var r, c := RowOf(row, dir, i), ColOf(col, dir, i);
            Partial(s, word, row, col, dir, i + 1) ==
              SolverState(t.grid[r := t.grid[r][c := word[i]]], t.placed, AddSlot(t.slots, word[i], (r, c)))
  {
    assert word[..i + 1][..i] == word[..i];
    WrittenCells(s.grid, word[..i], row, col, dir);
  }

  lemma PartialEnd(s: SolverState, word: string, row: int, col: int, dir: Dir)
    ensures var t := Partial(s, word, row, col, dir, |word|);
            Commit(s, word, row, col, dir) == SolverState(t.grid, t.placed + [Placement(word, row, col, dir)], t.slots)
  {
    assert word[..|word|] == word;
  }

  lemma CommitShape(s: SolverState, size: nat, word: string, row: int, col: int, dir: Dir)
    requires IsBoard(s.grid, size)
    ensures IsBoard(Commit(s, word, row, col, dir).grid, size)
  {
    WrittenCells(s.grid, word, row, col, dir);
  }

  /** Committing a placement that `_can_place` accepts keeps the invariant and
      never replaces a letter by a different one. */
  lemma {:induction false} CommitPreserves(s: SolverState, size: nat, word: string, row: int, col: int, dir: Dir)
    requires Invariant(s, size) && Fits(s.grid, size, word, row, col, dir)
    ensures Invariant(Commit(s, word, row, col, dir), size)
    ensures Keeps(s.grid, Commit(s, word, row, col, dir).grid)
  {
    var w := Written(s.grid, word, row, col, dir);
    WriteFitting(s.grid, size, word, row, col, dir);
    KeepsAgree(s.grid, w, size, s.slots);
    IndexedAgrees(w, size, s.slots, word, row, col, dir, |word|);
    assert word[..|word|] == word;
  }

  // ---------------------------------------------------------------------------
  // Intersection candidates: the loops over each letter's indexed cells in `solve`
  // ---------------------------------------------------------------------------

  /** The tuple (score, row, col, direction) collected in `candidates`. */
  datatype Candidate = Candidate(score: int, row: int, col: int, dir: Dir)

  function CandScore(c: Candidate): int
  {
    c.score
  }

  /** The origin that puts offset i of the word on slot s: 'V' starts i rows
      above it, 'H' starts i columns left of it. */
  function Anchor(s: Slot, i: int, dir: Dir): Pos
  {
    if dir == V then Pos(s.0 - i, s.1, V) else Pos(s.0, s.1 - i, H)
  }

  lemma AnchorCovers(s: Slot, i: int, dir: Dir)
    ensures var p := Anchor(s, i, dir);
            p.dir == dir && (RowOf(p.row, p.dir, i), ColOf(p.col, p.dir, i)) == s
  {
  }

  /** One proposal: kept, with its score, only when `_can_place` accepts it. */
  function Try(b: Board, size: nat, word: string, p: Pos): seq<Candidate>
    requires IsBoard(b, size)
  {
    if CanPlace(b, size, word, p.row, p.col, p.dir)
    then [Candidate(Score(b, size, word, p.row, p.col, p.dir), p.row, p.col, p.dir)]
    else []
  }

  /** `for direction in ['H', 'V']` on one slot. */
  function SlotCandidates(b: Board, size: nat, word: string, i: int, s: Slot): seq<Candidate>
    requires IsBoard(b, size)
  {
    Try(b, size, word, Anchor(s, i, H)) + Try(b, size, word, Anchor(s, i, V))
  }

  /** The candidates of offset i from the given slots, in list order. */
  function SlotsCandidates(b: Board, size: nat, word: string, i: int, slots: seq<Slot>): seq<Candidate>
    requires IsBoard(b, size)
    decreases |slots|
  {
    if slots == [] then []
    else SlotsCandidates(b, size, word, i, slots[..|slots| - 1]) + SlotCandidates(b, size, word, i, slots[|slots| - 1])
  }

  /** The candidates of the first n offsets of the word. */
  function CandidatesUpTo(b: Board, size: nat, m: SlotIndex, word: string, n: nat): seq<Candidate>
    requires IsBoard(b, size) && n <= |word|
  {
    if n == 0 then []
    else CandidatesUpTo(b, size, m, word, n - 1) + SlotsCandidates(b, size, word, n - 1, SlotsFor(m, word[n - 1]))
  }

  /** `candidates` in generation order: offsets, then slots, then 'H' before 'V'. */
  function CandidateList(b: Board, size: nat, m: SlotIndex, word: string): seq<Candidate>
    requires IsBoard(b, size)
  {
    CandidatesUpTo(b, size, m, word, |word|)
  }

  lemma SlotsCandidatesStep(b: Board, size: nat, word: string, i: int, slots: seq<Slot>, t: nat)
    requires IsBoard(b, size) && t < |slots|
    ensures SlotsCandidates(b, size, word, i, slots[..t + 1]) ==
            SlotsCandidates(b, size, word, i, slots[..t]) + SlotCandidates(b, size, word, i, slots[t])
  {
    assert slots[..t + 1][..t] == slots[..t];
  }

  /** What a candidate is: a legal placement, scored, that puts some offset i
      of the word on a slot indexed under that offset's letter. */
  ghost predicate Sound(b: Board, size: nat, m: SlotIndex, word: string, c: Candidate)
    requires IsBoard(b, size)
  {
    Fits(b, size, word, c.row, c.col, c.dir) &&
    c.score == Score(b, size, word, c.row, c.col, c.dir) &&
    exists i :: 0 <= i < |word| && (RowOf(c.row, c.dir, i), ColOf(c.col, c.dir, i)) in SlotsFor(m, word[i])
  }

  lemma {:induction false} SlotsCandidatesSound(b: Board, size: nat, m: SlotIndex, word: string, i: int, slots: seq<Slot>)
    requires IsBoard(b, size) && 0 <= i < |word|
    requires forall s :: s in slots ==> s in SlotsFor(m, word[i])
    ensures forall c :: c in SlotsCandidates(b, size, word, i, slots) ==> Sound(b, size, m, word, c)
    decreases |slots|
  {
    if slots != [] {
      var last := slots[|slots| - 1];
      SlotsCandidatesSound(b, size, m, word, i, slots[..|slots| - 1]);
      AnchorCovers(last, i, H);
      AnchorCovers(last, i, V);
      assert last in SlotsFor(m, word[i]);
    }
  }

  /** Every generated candidate is legal, correctly scored and covers an
      indexed slot at the offset of that slot's letter. */
  lemma {:induction false} CandidatesSound(b: Board, size: nat, m: SlotIndex, word: string, n: nat)
    requires IsBoard(b, size) && n <= |word|
    ensures forall c :: c in CandidatesUpTo(b, size, m, word, n) ==> Sound(b, size, m, word, c)
  {
    if n > 0 {
      CandidatesSound(b, size, m, word, n - 1);
      SlotsCandidatesSound(b, size, m, word, n - 1, SlotsFor(m, word[n - 1]));
    }
  }

  lemma {:induction false} SlotsCandidatesPrefix(b: Board, size: nat, word: string, i: int, slots: seq<Slot>, t: nat)
    requires IsBoard(b, size) && t <= |slots|
    ensures SlotsCandidates(b, size, word, i, slots[..t]) <= SlotsCandidates(b, size, word, i, slots)
    decreases |slots| - t
  {
    if t < |slots| {
      SlotsCandidatesPrefix(b, size, word, i, slots, t + 1);
      assert slots[..t + 1][..t] == slots[..t];
    } else {
      assert slots[..t] == slots;
    }
  }

  lemma {:induction false} CandidatesUpToPrefix(b: Board, size: nat, m: SlotIndex, word: string, n: nat, n2: nat)
    requires IsBoard(b, size) && n <= n2 <= |word|
    ensures CandidatesUpTo(b, size, m, word, n) <= CandidatesUpTo(b, size, m, word, n2)
    decreases n2 - n
  {
    if n < n2 {
      CandidatesUpToPrefix(b, size, m, word, n, n2 - 1);
    }
  }

  lemma InPrefix<T>(x: T, a: seq<T>, b: seq<T>)
    requires x in a && a <= b
    ensures x in b
  {
    var k :| 0 <= k < |a| && a[k] == x;
    assert b[k] == x;
  }

  /** A fitting anchor on a slot yields its candidate in that slot's pair. */
  lemma SlotCandidatesHas(b: Board, size: nat, word: string, i: int, s: Slot, dir: Dir)
    requires IsBoard(b, size)
    requires var p := Anchor(s, i, dir); Fits(b, size, word, p.row, p.col, p.dir)
    ensures var p := Anchor(s, i, dir);
            Candidate(Score(b, size, word, p.row, p.col, p.dir), p.row, p.col, p.dir) in SlotCandidates(b, size, word, i, s)
  {
    var p := Anchor(s, i, dir);
    assert Try(b, size, word, p) == [Candidate(Score(b, size, word, p.row, p.col, p.dir), p.row, p.col, p.dir)];
  }

  /** Every legal placement through an indexed slot, at the offset of the
      slot's letter and in either direction, is among the candidates. */
  lemma {:induction false} CandidatesComplete(b: Board, size: nat, m: SlotIndex, word: string, i: nat, t: nat, dir: Dir)
    requires IsBoard(b, size) && i < |word| && t < |SlotsFor(m, word[i])|
    requires var p := Anchor(SlotsFor(m, word[i])[t], i, dir); Fits(b, size, word, p.row, p.col, p.dir)
    ensures var p := Anchor(SlotsFor(m, word[i])[t], i, dir);
            Candidate(Score(b, size, word, p.row, p.col, p.dir), p.row, p.col, p.dir) in CandidateList(b, size, m, word)
  {
    var slots := SlotsFor(m, word[i]);
    var p := Anchor(slots[t], i, dir);
    var c := Candidate(Score(b, size, word, p.row, p.col, p.dir), p.row, p.col, p.dir);
    SlotCandidatesHas(b, size, word, i, slots[t], dir);
    SlotsCandidatesStep(b, size, word, i, slots, t);
    assert c in SlotsCandidates(b, size, word, i, slots[..t + 1]);
    SlotsCandidatesPrefix(b, size, word, i, slots, t + 1);
    InPrefix(c, SlotsCandidates(b, size, word, i, slots[..t + 1]), SlotsCandidates(b, size, word, i, slots));
    assert c in CandidatesUpTo(b, size, m, word, i + 1);
    CandidatesUpToPrefix(b, size, m, word, i + 1, |word|);
    InPrefix(c, CandidatesUpTo(b, size, m, word, i + 1), CandidatesUpTo(b, size, m, word, |word|));
  }

  /** With the index agreeing with the grid, every candidate of a word
      without blanks is a real intersection: it scores at least 1. */
  lemma CandidatesOverlap(b: Board, size: nat, m: SlotIndex, word: string, c: Candidate)
    requires IsBoard(b, size) && SlotsAgree(b, size, m)
    requires forall k :: 0 <= k < |word| ==> word[k] != Blank
    requires c in CandidateList(b, size, m, word)
    ensures c.score >= 1
  {
    CandidatesSound(b, size, m, word, |word|);
    var i :| 0 <= i < |word| && (RowOf(c.row, c.dir, i), ColOf(c.col, c.dir, i)) in SlotsFor(m, word[i]);
    var t :| 0 <= t < |m[word[i]]| && m[word[i]][t] == (RowOf(c.row, c.dir, i), ColOf(c.col, c.dir, i));
    assert i in MatchingFrom(b, size, word, c.row, c.col, c.dir, 0);
  }

  // ---------------------------------------------------------------------------
  // One word of `solve`: the best candidate, or the random fallback
  // ---------------------------------------------------------------------------

  /** The random fallback from draw k on: commit the first draw `_can_place`
      accepts, or change nothing. */
  function FallbackFrom(s: SolverState, size: nat, word: string, tries: seq<Pos>, k: nat): SolverState
    requires IsBoard(s.grid, size) && k <= |tries|
    decreases |tries| - k
  {
    if k == |tries| then s
    else if CanPlace(s.grid, size, word, tries[k].row, tries[k].col, tries[k].dir)
    then Commit(s, word, tries[k].row, tries[k].col, tries[k].dir)
    else FallbackFrom(s, size, word, tries, k + 1)
  }

  /** The random fallback of `solve`: up to 50 draws, the first that fits. */
  function FallbackSpec(s: SolverState, size: nat, word: string, tries: seq<Pos>): SolverState
    requires IsBoard(s.grid, size)
  {
    FallbackFrom(s, size, word, tries, 0)
  }

  lemma {:induction false} FallbackFromFit(s: SolverState, size: nat, word: string, tries: seq<Pos>, k: nat, n: nat)
    requires IsBoard(s.grid, size) && k <= n && FirstFit(s.grid, size, word, tries, n)
    ensures FallbackFrom(s, size, word, tries, k) == Commit(s, word, tries[n].row, tries[n].col, tries[n].dir)
    decreases n - k
  {
    if k < n {
      assert !Fits(s.grid, size, word, tries[k].row, tries[k].col, tries[k].dir);
      FallbackFromFit(s, size, word, tries, k + 1, n);
    }
  }

  lemma {:induction false} FallbackFromNone(s: SolverState, size: nat, word: string, tries: seq<Pos>, k: nat)
    requires IsBoard(s.grid, size) && k <= |tries|
    requires forall n :: k <= n < |tries| ==> !Fits(s.grid, size, word, tries[n].row, tries[n].col, tries[n].dir)
    ensures FallbackFrom(s, size, word, tries, k) == s
    decreases |tries| - k
  {
    if k < |tries| {
      FallbackFromNone(s, size, word, tries, k + 1);
    }
  }

  /** The fallback commits exactly the first fitting draw, and leaves the
      state untouched when no draw fits. */
  lemma FallbackFirstFit(s: SolverState, size: nat, word: string, tries: seq<Pos>)
    requires IsBoard(s.grid, size)
    ensures forall n :: FirstFit(s.grid, size, word, tries, n) ==>
              FallbackSpec(s, size, word, tries) == Commit(s, word, tries[n].row, tries[n].col, tries[n].dir)
    ensures (forall n :: 0 <= n < |tries| ==> !Fits(s.grid, size, word, tries[n].row, tries[n].col, tries[n].dir)) ==>
              FallbackSpec(s, size, word, tries) == s
  {
    forall n | FirstFit(s.grid, size, word, tries, n)
      ensures FallbackSpec(s, size, word, tries) == Commit(s, word, tries[n].row, tries[n].col, tries[n].dir)
    {
      FallbackFromFit(s, size, word, tries, 0, n);
    }
    if forall n :: 0 <= n < |tries| ==> !Fits(s.grid, size, word, tries[n].row, tries[n].col, tries[n].dir) {
      FallbackFromNone(s, size, word, tries, 0);
    }
  }

  /** One word: commit the head of the candidates sorted by descending score
      (`candidates[:5]` and the loop that breaks at once); with no candidate,
      run the random fallback. */
  function PlaceNextSpec(s: SolverState, size: nat, word: string, tries: seq<Pos>): SolverState
    requires IsBoard(s.grid, size)
  {
    var cs := CandidateList(s.grid, size, s.slots, word);
    if cs != [] then
      var best := SortByKeyDesc(cs, CandScore)[0];
      Commit(s, word, best.row, best.col, best.dir)
    else FallbackSpec(s, size, word, tries)
  }

  /** The committed candidate is the first one of maximal score in generation
      order (Python's sort is stable); without candidates the fallback runs. */
  lemma CommitsFirstMax(s: SolverState, size: nat, word: string, tries: seq<Pos>)
    requires IsBoard(s.grid, size)
    ensures var cs := CandidateList(s.grid, size, s.slots, word);
            cs != [] ==> exists n :: IsFirstMax(cs, CandScore, n) &&
                                     PlaceNextSpec(s, size, word, tries) == Commit(s, word, cs[n].row, cs[n].col, cs[n].dir)
  {
    var cs := CandidateList(s.grid, size, s.slots, word);
    if cs != [] {
      SortByKeyDescHead(cs, CandScore);
    }
  }

  /** One word keeps the invariant, keeps every letter, and records at most
      one placement, of that word. */
  lemma {:induction false} PlaceNextPreserves(s: SolverState, size: nat, word: string, tries: seq<Pos>)
    requires Invariant(s, size)
    ensures var t := PlaceNextSpec(s, size, word, tries);
            && Invariant(t, size)
            && Keeps(s.grid, t.grid)
            && s.placed <= t.placed && |t.placed| <= |s.placed| + 1
            && forall k :: |s.placed| <= k < |t.placed| ==> t.placed[k].word == word
  {
    var cs := CandidateList(s.grid, size, s.slots, word);
    if cs != [] {
      var best := SortByKeyDesc(cs, CandScore)[0];
      SortByKeyDescPerm(cs, CandScore);
      assert best in multiset(SortByKeyDesc(cs, CandScore));
      CandidatesSound(s.grid, size, s.slots, word, |word|);
      assert best in cs;
      CommitPreserves(s, size, word, best.row, best.col, best.dir);
    } else {
      FallbackPreserves(s, size, word, tries, 0);
    }
  }

  lemma {:induction false} FallbackPreserves(s: SolverState, size: nat, word: string, tries: seq<Pos>, k: nat)
    requires Invariant(s, size) && k <= |tries|
    ensures var t := FallbackFrom(s, size, word, tries, k);
            && Invariant(t, size)
            && Keeps(s.grid, t.grid)
            && s.placed <= t.placed && |t.placed| <= |s.placed| + 1
            && forall j :: |s.placed| <= j < |t.placed| ==> t.placed[j].word == word
    decreases |tries| - k
  {
    if k < |tries| {
      var a := tries[k];
      if CanPlace(s.grid, size, word, a.row, a.col, a.dir) {
        CommitPreserves(s, size, word, a.row, a.col, a.dir);
      } else {
        FallbackPreserves(s, size, word, tries, k + 1);
      }
    } else {
      assert Keeps(s.grid, s.grid);
    }
  }

  // ---------------------------------------------------------------------------
  // `solve`
  // ---------------------------------------------------------------------------

  /** Words k.. of `solve`'s loop, word k drawing from `draws[k]`. */
  function SolveFrom(s: SolverState, size: nat, words: seq<string>, draws: seq<seq<Pos>>, k: nat): SolverState
    requires IsBoard(s.grid, size) && |draws| == |words| && k <= |words|
    decreases |words| - k
  {
    if k == |words| then s
    else
      var t := PlaceNextSpec(s, size, words[k], draws[k]);
      assert IsBoard(t.grid, size) by { PlaceNextShape(s, size, words[k], draws[k]); }
      SolveFrom(t, size, words, draws, k + 1)
  }

  lemma {:induction false} PlaceNextShape(s: SolverState, size: nat, word: string, tries: seq<Pos>)
    requires IsBoard(s.grid, size)
    ensures IsBoard(PlaceNextSpec(s, size, word, tries).grid, size)
  {
    var cs := CandidateList(s.grid, size, s.slots, word);
    if cs == [] {
      FallbackShape(s, size, word, tries, 0);
    }
  }

  lemma {:induction false} FallbackShape(s: SolverState, size: nat, word: string, tries: seq<Pos>, k: nat)
    requires IsBoard(s.grid, size) && k <= |tries|
    ensures IsBoard(FallbackFrom(s, size, word, tries, k).grid, size)
    decreases |tries| - k
  {
    if k < |tries| {
      FallbackShape(s, size, word, tries, k + 1);
      CommitShape(s, size, word, tries[k].row, tries[k].col, tries[k].dir);
    }
  }

  /** `solve` on a fresh solver whose `words` are already upper-cased and
      sorted: nothing for no words, else seed the first word centred and
      horizontal and place the rest one by one. */
  function SolveSpec(words: seq<string>, size: nat, draws: seq<seq<Pos>>): SolverState
    requires |draws| == |words|
  {
    if words == [] then Initial(size)
    else
      SolveFrom(Seed(size, words[0]), size, words, draws, 1)
  }

  /** The start of `solve`: the first word goes horizontally, centred on the grid. */
  function Seed(size: nat, first: string): SolverState
  {
    Commit(Initial(size), first, size / 2, (size - |first|) / 2, H)
  }

  lemma SolveSpecSeeded(words: seq<string>, size: nat, draws: seq<seq<Pos>>)
    requires |draws| == |words| && words != []
    ensures SolveSpec(words, size, draws) == SolveFrom(Seed(size, words[0]), size, words, draws, 1)
  {
  }

  lemma SeedFrom(s0: SolverState, size: nat, first: string)
    requires s0 == Initial(size)
    ensures Commit(s0, first, size / 2, (size - |first|) / 2, H) == Seed(size, first)
  {
  }

  /** The seeded state satisfies the invariant and records just the centred
      first word. */
  lemma SeedValid(size: nat, first: string)
    requires |first| <= size
    ensures Invariant(Seed(size, first), size)
    ensures Seed(size, first).placed == [Placement(first, size / 2, (size - |first|) / 2, H)]
  {
    var s0 := Initial(size);
    CentredInBounds(size, |first|);
    BlankFits(size, first, size / 2, (size - |first|) / 2, H);
    assert Invariant(s0, size);
    CommitPreserves(s0, size, first, size / 2, (size - |first|) / 2, H);
  }

  lemma {:induction false} SolveFromPreserves(s: SolverState, size: nat, words: seq<string>, draws: seq<seq<Pos>>, k: nat)
    requires Invariant(s, size) && |draws| == |words| && k <= |words|
    ensures var t := SolveFrom(s, size, words, draws, k);
            && Invariant(t, size)
            && Keeps(s.grid, t.grid)
            && s.placed <= t.placed && |t.placed| <= |s.placed| + (|words| - k)
            && forall j :: |s.placed| <= j < |t.placed| ==> t.placed[j].word in words[k..]
    decreases |words| - k
  {
    if k < |words| {
      var t := PlaceNextSpec(s, size, words[k], draws[k]);
      PlaceNextPreserves(s, size, words[k], draws[k]);
      SolveFromPreserves(t, size, words, draws, k + 1);
      var u := SolveFrom(t, size, words, draws, k + 1);
      forall j | |s.placed| <= j < |u.placed|
        ensures u.placed[j].word in words[k..]
      {
        if j < |t.placed| {
          assert u.placed[j] == t.placed[j];
          assert words[k..][0] == words[k];
        } else {
          assert u.placed[j].word in words[k + 1..];
          assert words[k + 1..] == words[k..][1..];
        }
      }
      KeepsTransitive(s.grid, t.grid, u.grid);
    } else {
      assert Keeps(s.grid, s.grid);
    }
  }

  /** The fallback appends at most one placement, of its word. */
  lemma {:induction false} FallbackRecords(s: SolverState, size: nat, word: string, tries: seq<Pos>, k: nat)
    requires IsBoard(s.grid, size) && k <= |tries|
    ensures RecordsAtMostOne(s.placed, FallbackFrom(s, size, word, tries, k).placed, word)
    decreases |tries| - k
  {
    if k < |tries| && !CanPlace(s.grid, size, word, tries[k].row, tries[k].col, tries[k].dir) {
      FallbackRecords(s, size, word, tries, k + 1);
    }
  }

  /** One word appends at most one placement, of that word. */
  lemma PlaceNextRecords(s: SolverState, size: nat, word: string, tries: seq<Pos>)
    requires IsBoard(s.grid, size)
    ensures RecordsAtMostOne(s.placed, PlaceNextSpec(s, size, word, tries).placed, word)
  {
    FallbackRecords(s, size, word, tries, 0);
  }

  /** One turn of `solve`'s loop: word k's step, then the rest. */
  lemma SolveFromStep(s: SolverState, size: nat, words: seq<string>, draws: seq<seq<Pos>>, k: nat)
    requires IsBoard(s.grid, size) && |draws| == |words| && k < |words|
    ensures var t := PlaceNextSpec(s, size, words[k], draws[k]);
            && IsBoard(t.grid, size)
            && RecordsAtMostOne(s.placed, t.placed, words[k])
            && SolveFrom(s, size, words, draws, k) == SolveFrom(t, size, words, draws, k + 1)
  {
    PlaceNextRecords(s, size, words[k], draws[k]);
    PlaceNextShape(s, size, words[k], draws[k]);
  }

  /** The loop over words k.. appends at most one placement per word, in
      order: the new placements' words are a subsequence of words[k..]. */
  lemma {:induction false} SolveFromOrder(s: SolverState, size: nat, words: seq<string>, draws: seq<seq<Pos>>, k: nat, r: SolverState)
    requires IsBoard(s.grid, size) && |draws| == |words| && k <= |words|
    requires r == SolveFrom(s, size, words, draws, k)
    ensures s.placed <= r.placed && Subsequence(WordsOf(r.placed[|s.placed|..]), words[k..])
    decreases |words| - k
  {
    if k < |words| {
      var t := PlaceNextSpec(s, size, words[k], draws[k]);
      SolveFromStep(s, size, words, draws, k);
      SolveFromOrder(t, size, words, draws, k + 1, r);
      WordsOfStep(s.placed, t.placed, r.placed, words, k);
    } else {
      assert WordsOf(s.placed[|s.placed|..]) == [];
    }
  }

  lemma KeepsTransitive(a: Board, b: Board, c: Board)
    requires Keeps(a, b) && Keeps(b, c)
    ensures Keeps(a, c)
  {
  }

  /** `solve` places the seed word, then at most one placement per later
      word, in the words' order: the placed words are a subsequence of the
      words. */
  lemma SolveOrder(words: seq<string>, size: nat, draws: seq<seq<Pos>>)
    requires |draws| == |words| && words != [] && |words[0]| <= size
    ensures Subsequence(WordsOf(SolveSpec(words, size, draws).placed), words)
  {
    var s1 := Seed(size, words[0]);
    SeedValid(size, words[0]);
    SolveFromOrder(s1, size, words, draws, 1, SolveSpec(words, size, draws));
    var u := SolveSpec(words, size, draws).placed;
    WordsOfStep([], s1.placed, u, words, 0);
    assert u[0..] == u && words[0..] == words;
  }

  /** What `solve` returns: the invariant holds (every placement in bounds and
      spelled, every slot holding its letter); the placed words are a
      subsequence of the words (at most one placement per word, in the
      words' order), so no more placements than words, each of a given word;
      no words leave the blank grid and no placements; otherwise the first
      placement is the first word, horizontal, centred. */
  lemma SolveProperties(words: seq<string>, size: nat, draws: seq<seq<Pos>>)
    requires |draws| == |words| && (words != [] ==> |words[0]| <= size)
    ensures var t := SolveSpec(words, size, draws);
            && Invariant(t, size)
            && Subsequence(WordsOf(t.placed), words)
            && |t.placed| <= |words|
            && (forall p :: p in t.placed ==> p.word in words)
            && (words == [] ==> t.grid == BlankBoard(size) && t.placed == [])
            && (words != [] ==> t.placed != [] && t.placed[0] == Placement(words[0], size / 2, (size - |words[0]|) / 2, H))
  {
    if words != [] {
      var s1 := Seed(size, words[0]);
      SeedValid(size, words[0]);
      SolveFromPreserves(s1, size, words, draws, 1);
      var t := SolveSpec(words, size, draws);
      assert t.placed[0] == s1.placed[0];
      SolveOrder(words, size, draws);
      PlacedWithin(t.placed, words);
    }
  }

  // ---------------------------------------------------------------------------
  // The class
  // ---------------------------------------------------------------------------

  class CrosswordSolver {
    var words: seq<string>
    const size: nat
    var grid: Board
    var placed: seq<Placement>
    var letterPositions: SlotIndex

    function State(): SolverState
      reads this
    {
      SolverState(grid, placed, letterPositions)
    }

    ghost predicate Valid()
      reads this
    {
      Invariant(State(), size)
    }

    /** `__init__`: words upper-cased and sorted longest first (stable), a
        blank size × size grid, no placements, an empty index. */
    constructor (ws: seq<string>, size: nat)
      ensures this.size == size && words == SortedWords(ws)
      ensures State() == Initial(size)
      ensures Valid()
    {
      var upper := UpperAll(ws);
      this.size := size;
      grid := BlankBoard(size);
      placed := [];
      letterPositions := map[];
      words := SortByKeyDesc(upper, Length);
    }

    /** `_place_word`: writes each letter, appends each cell under its letter,
        then records the placement; it needs every covered cell on the grid. */
    method PlaceWord(word: string, row: int, col: int, dir: Dir)
      requires IsBoard(grid, size) && AllInBounds(size, |word|, row, col, dir)
      modifies this`grid, this`placed, this`letterPositions
      ensures State() == Commit(old(State()), word, row, col, dir)
      ensures IsBoard(grid, size)
    {
      CommitShape(State(), size, word, row, col, dir);
      PartialStart(State(), word, row, col, dir);
      for i := 0 to |word|
        invariant State() == Partial(old(State()), word, row, col, dir, i)
      {
        var r, c := RowOf(row, dir, i), ColOf(col, dir, i);
        PartialStep(old(State()), word, row, col, dir, i);
        grid := grid[r := grid[r][c := word[i]]];
        letterPositions := AddSlot(letterPositions, word[i], (r, c));
      }
      PartialEnd(old(State()), word, row, col, dir);
      placed := placed + [Placement(word, row, col, dir)];
    }

    /** The candidate-collecting loops of `solve` for one word. */
    method Candidates(word: string) returns (cands: seq<Candidate>)
      requires IsBoard(grid, size)
      ensures cands == CandidateList(grid, size, letterPositions, word)
    {
      cands := [];
      for i := 0 to |word|
        invariant cands == CandidatesUpTo(grid, size, letterPositions, word, i)
      {
        var more := CandidatesAt(grid, size, word, i, SlotsFor(letterPositions, word[i]));
        cands := cands + more;
      }
    }

    /** The random fallback: up to 50 draws, committing the first that fits. */
    method Fallback(word: string, tries: seq<Pos>) returns (ok: bool)
      requires Valid()
      requires |tries| == MaxTries && forall a :: a in tries ==> InSampledRange(a, |word|, size)
      modifies this`grid, this`placed, this`letterPositions
      ensures State() == FallbackSpec(old(State()), size, word, tries)
      ensures Valid()
      ensures ok <==> exists n :: 0 <= n < |tries| && Fits(old(grid), size, word, tries[n].row, tries[n].col, tries[n].dir)
      ensures ok <==> |placed| == |old(placed)| + 1
    {
      ok := false;
      for k := 0 to |tries|
        invariant State() == old(State())
        invariant FallbackFrom(State(), size, word, tries, k) == FallbackSpec(State(), size, word, tries)
        invariant forall n :: 0 <= n < k ==> !Fits(grid, size, word, tries[n].row, tries[n].col, tries[n].dir)
      {
        var a := tries[k];
        if CanPlace(grid, size, word, a.row, a.col, a.dir) {
          FallbackPreserves(State(), size, word, tries, 0);
          PlaceWord(word, a.row, a.col, a.dir);
          ok := true;
          return;
        }
      }
    }

    /** The body of `solve`'s loop for one word. */
    method PlaceNext(word: string, tries: seq<Pos>) returns (ok: bool)
      requires Valid()
      requires |tries| == MaxTries && forall a :: a in tries ==> InSampledRange(a, |word|, size)
      modifies this`grid, this`placed, this`letterPositions
      ensures State() == PlaceNextSpec(old(State()), size, word, tries)
      ensures Valid()
      ensures ok <==> |placed| == |old(placed)| + 1
    {
      PlaceNextPreserves(State(), size, word, tries);
      var cands := Candidates(word);
      if cands != [] {
        var sorted := SortByKeyDesc(cands, CandScore);
        var best := sorted[0];
        SortByKeyDescPerm(cands, CandScore);
        assert best in multiset(sorted);
        CandidatesSound(grid, size, letterPositions, word, |word|);
        assert best in cands;
        PlaceWord(word, best.row, best.col, best.dir);
        ok := true;
      } else {
        ok := Fallback(word, tries);
        PlaceNextFallback(old(State()), size, word, tries);
      }
    }

    /** The loop of `solve` over `words[1:]`. */
    method PlaceRest(draws: seq<seq<Pos>>)
      requires Valid() && 1 <= |words| && |draws| == |words|
      requires forall k :: 1 <= k < |words| ==>
                 |draws[k]| == MaxTries && forall a :: a in draws[k] ==> InSampledRange(a, |words[k]|, size)
      modifies this`grid, this`placed, this`letterPositions
      ensures State() == SolveFrom(old(State()), size, words, draws, 1)
      ensures Valid()
    {
      for k := 1 to |words|
        invariant Valid()
        invariant SolveFrom(State(), size, words, draws, k) == SolveFrom(old(State()), size, words, draws, 1)
      {
        var _ := PlaceNext(words[k], draws[k]);
      }
    }

    /** `solve` on a freshly constructed solver (the way `create_crossword`
        uses it): returns the grid and the placements. */
    method Solve(draws: seq<seq<Pos>>) returns (g: Board, ps: seq<Placement>)
      requires State() == Initial(size)
      requires words != [] ==> |words[0]| <= size
      requires |draws| == |words|
      requires forall k :: 1 <= k < |words| ==>
                 |draws[k]| == MaxTries && forall a :: a in draws[k] ==> InSampledRange(a, |words[k]|, size)
      modifies this`grid, this`placed, this`letterPositions
      ensures State() == SolveSpec(words, size, draws)
      ensures g == grid && ps == placed
      ensures Valid() && |placed| <= |words|
      ensures Subsequence(WordsOf(placed), words)
    {
      if words != [] {
        var first := words[0];
        CentredInBounds(size, |first|);
        ghost var s0 := State();
        PlaceWord(first, size / 2, (size - |first|) / 2, H);
        ghost var s1 := State();
        SeedFrom(s0, size, first);
        assert s1 == Seed(size, first);
        SeedValid(size, first);
        PlaceRest(draws);
        SolveSpecSeeded(words, size, draws);
        assert State() == SolveFrom(s1, size, words, draws, 1);
      }
      SolveProperties(words, size, draws);
      return grid, placed;
    }
  }

  /** A word without an intersection candidate lands at the first of its
      random draws that fits, and leaves grid, placements and index unchanged
      when no draw fits. */
  lemma PlaceNextFallback(s: SolverState, size: nat, word: string, tries: seq<Pos>)
    requires IsBoard(s.grid, size)
    ensures CandidateList(s.grid, size, s.slots, word) == [] ==> PlaceNextSpec(s, size, word, tries) == FallbackSpec(s, size, word, tries)
    ensures CandidateList(s.grid, size, s.slots, word) == [] ==>
              forall n :: FirstFit(s.grid, size, word, tries, n) ==>
                PlaceNextSpec(s, size, word, tries) == Commit(s, word, tries[n].row, tries[n].col, tries[n].dir)
    ensures CandidateList(s.grid, size, s.slots, word) == [] &&
            (forall n :: 0 <= n < |tries| ==> !Fits(s.grid, size, word, tries[n].row, tries[n].col, tries[n].dir)) ==>
              PlaceNextSpec(s, size, word, tries) == s
  {
    FallbackFirstFit(s, size, word, tries);
  }

  /** The inner loop of the candidate search: every slot of letter i, first
      'H' then 'V'. */
  method CandidatesAt(g: Board, size: nat, word: string, i: int, slots: seq<Slot>) returns (cands: seq<Candidate>)
    requires IsBoard(g, size)
    ensures cands == SlotsCandidates(g, size, word, i, slots)
  {
    cands := [];
    for t := 0 to |slots|
      invariant cands == SlotsCandidates(g, size, word, i, slots[..t])
    {
      SlotsCandidatesStep(g, size, word, i, slots, t);
      var across := Try(g, size, word, Anchor(slots[t], i, H));
      var down := Try(g, size, word, Anchor(slots[t], i, V));
      cands := cands + (across + down);
    }
    assert slots[..|slots|] == slots;
  }

  /** `create_crossword` of this file: build a solver and solve. */
  method CreateCrossword(ws: seq<string>, size: nat, draws: seq<seq<Pos>>) returns (grid: Board, placed: seq<Placement>)
    requires ws != [] ==> |SortedWords(ws)[0]| <= size
    requires |draws| == |ws|
    requires forall k :: 1 <= k < |ws| ==>
               |draws[k]| == MaxTries && forall a :: a in draws[k] ==> InSampledRange(a, |SortedWords(ws)[k]|, size)
    ensures IsBoard(grid, size)
    ensures forall p :: p in placed ==> Spelled(grid, size, p)
    ensures |placed| <= |ws|
    ensures forall p :: p in placed ==> p.word in SortedWords(ws)
    ensures Subsequence(WordsOf(placed), SortedWords(ws))
    ensures ws == [] ==> grid == BlankBoard(size) && placed == []
    ensures ws != [] ==> placed != [] && placed[0] == Placement(SortedWords(ws)[0], size / 2, (size - |SortedWords(ws)[0]|) / 2, H)
  {
    var solver := new CrosswordSolver(ws, size);
    grid, placed := solver.Solve(draws);
    SolveProperties(solver.words, size, draws);
  }
}
